=== FILE: README.md ===
# Swing and stickman assembly, modelled in Dafny

This project models the two scene objects of a small pymunk physics toy.

- `src/objects/swing.py`: a swing is a chain of disc-shaped links.
  - The first link is static and sits at the start position.
  - Each later link is created one link length further along the swing's start direction.
  - Each later link is pin-jointed to the link before it.
- `src/objects/stickman.py`: a stickman is eight body parts (head, neck, upper and lower arm, torso, upper and lower leg, foot).
  - The parts are placed from the foot upward by vector arithmetic.
  - All parts share one collision group.
  - No joint connects them.

Both objects have an `update` that applies a quadratic air-drag force to each of their bodies.
The application loop (`src/pg/app.py:101-108`) calls `update` on the swings only; `Stickman.update` exists but nothing calls it.

The physics space is modelled functionally (`World.Space`):
- the sets of registered body, shape and constraint handles;
- the log of forces applied since the last step;
- a counter `next` that hands out fresh handles.

Every operation that adds to the space takes a space and returns the new one.

Three numbers come from outside the modelled code. They arrive through `World.Physics`:
- the direction `dir_vec(angle)`, which is a rotation of `NORM_VECTOR`;
- the Euclidean length of a vector, which is a square root;
- the area pymunk reports for a shape.

Files:
- `geometry.dfy`: vectors, the constants of `src/constants.py`, and `Option`.
- `config_types.dfy`: the parsed configuration records.
- `world.dfy`: the space, part creation, the drag law, and per-part update.
- `swing.dfy`, `swing_properties.dfy`: the swing and what its operations promise.
- `stickman.dfy`, `stickman_properties.dfy`: the stickman and what its operations promise.

The code stores the stickman's two legs in each other's fields; see "## Findings".

## Model

| member | source | states |
|---|---|---|
| World.NewPart | src/objects/swing.py:54-56 | A part is a fresh dynamic body at rest at the given position, carrying a fresh shape with the given outline and group. The body and shape take the next two handles, are registered, and nothing else in the space changes. |
| World.NewPartKeepsValid | src/objects/swing.py:56 | The two handles a new part takes were not registered before. Registering them keeps every handle below the allocation counter. |
| World.DragConstant | src/objects/swing.py:42 | k is positive for a positive area and zero for a zero area. |
| World.NormalizedAndLength | src/objects/swing.py:43 | The length returned is the length passed in. A zero length gives the zero direction; otherwise the direction times the length is the vector itself. |
| World.DragForce | src/objects/swing.py:40-46 | The drag is zero at zero speed. Otherwise it is the velocity scaled by minus k times the speed. |
| World.DragOpposesMotion | src/objects/swing.py:40-46 | For a non-negative area and speed, the drag is a non-positive multiple of the velocity, so its dot product with the velocity is never positive. |
| World.DragZeroExactly | src/objects/stickman.py:60-66 | When the speed is zero exactly for the zero velocity, the drag is zero if and only if the body is at rest or the shape has no area. |
| World.PartDrag | src/objects/stickman.py:168-174 | A part's drag is zero when its body is at rest and the zero vector has length 0. For a non-negative area and speed it never has a positive component along the body's velocity. |
| World.UpdatePart | src/objects/stickman.py:116-117 | A part's update appends exactly one force, keeps the earlier forces and every registered set, and the new force acts on the part's own body at its own position. The force is zero for a body at rest and never has a positive component along the body's velocity. |
| World.UpdateAll | src/objects/stickman.py:283-285 | Updating a list of parts appends one force per part, in list order. Force i belongs to part i, the earlier forces are kept, and nothing else in the space changes. |
| Swings.Generate | src/objects/swing.py:48-58 | A new link is dynamic, at rest, at its start position and owns no joint. It has a centred circle of the config's radius and group on a body of the config's (finite) mass, and it registers exactly one body and one shape. |
| Swings.Position | src/objects/swing.py:32-34 | A plain accessor for the body's position. Its meaning is stated where links are built: Swings.Generate puts a new link at its start position, and SwingProperties.CreatePlacesLinks gives every link's position in closed form. |
| Swings.StaticLink | src/objects/swing.py:60-66 | The top link is a generated link at rest with the same config, position and handles, whose body is static and so has infinite mass. |
| Swings.AddPinJoint | src/objects/swing.py:93-97 | The link's joint handles gain exactly the new one. In a well-formed space that handle was not registered before, so the space gains exactly one constraint and stays well formed. |
| Swings.DynamicLink | src/objects/swing.py:68-79 | The next link sits one link length from the previous link along dir_vec(angle) and copies its config. It is dynamic and at rest, and it owns exactly one pin joint, from the previous link's body to its own, anchored at (0, 0). It takes three fresh handles. |
| Swings.RemoveFromSpace | src/objects/swing.py:102-103 | Removing a link unregisters its body, its shape and every joint it owns, and nothing else. |
| Swings.UpdateLink | src/objects/swing.py:99-100 | A link's update appends one force, keeps the earlier ones, and acts on the link's body at the link's position. For a link whose shape matches its config, the force is the drag of a circle of the config's radius at the body's velocity. It is zero while the link is at rest. |
| Swings.GetLinkByIndex | src/objects/swing.py:144-145 | Following Python list indexing, a link exists if and only if -n <= index < n. A non-negative index gives links[index], and a negative one gives links[n + index]. |
| Swings.NumLinks | src/objects/swing.py:114-116 | num_links is the number of links. It is positive exactly when index -1 names a link, and then index num_links - 1 names the same link as -1. |
| Swings.NegativeIndexCountsFromEnd | src/objects/swing.py:144-145 | A negative index names the same link as that index plus the number of links. |
| Swings.TopLink | src/objects/swing.py:118-120 | The top link exists if and only if the swing has links, and it is link 0. |
| Swings.Seat | src/objects/swing.py:122-124 | The seat exists if and only if the swing has links, and it is the last link. |
| Swings.Chain | src/objects/swing.py:134-141 | After n loop iterations there are n + 1 links. Link 0 is static with infinite mass at the start position, and each later link follows the one before it with the config's finite mass. The handles are laid out from the old counter, and the space gains exactly the chain's bodies, shapes and joints. |
| Swings.Create | src/objects/swing.py:126-142 | A swing has max(1, num_links) links and keeps start_pos, start_angle and link_length. Link 0 is static with infinite mass, every later link follows its predecessor, and exactly the chain's handles are registered. |
| Swings.Update | src/objects/swing.py:147-149 | The swing's update appends one force per link, in link order, and changes nothing else. |
| Swings.RemoveLinks | src/objects/swing.py:151-153 | Removing each link in turn unregisters exactly the chain's bodies, shapes and joints. |
| Swings.Remove | src/objects/swing.py:151-153 | Removing the swing unregisters exactly its links' bodies, shapes and joints. |
| SwingProperties.ChainedPlacement | src/objects/swing.py:139-140 | Along a chain, link i sits i link lengths from link 0 in the chain's direction and carries link 0's config. |
| SwingProperties.CreatePlacesLinks | src/objects/swing.py:126-142 | Link i of a new swing is at start_pos + i * link_length * dir_vec(start_angle). Link 0 is static with infinite mass; every other link is dynamic with the configured link mass. Every link has the configured radius and group. |
| SwingProperties.HangsStraightDown | src/objects/swing.py:139-140 | With start angle 0 and the reference direction (0, -1), link i hangs i link lengths straight below the start position. |
| SwingProperties.CreateJoinsNeighbours | src/objects/swing.py:68-79 | The top link owns no joint. Link i owns exactly one pin joint, from link i - 1's body to its own, so a swing has num_links - 1 joints. |
| SwingProperties.FreshChainCounts | src/objects/swing.py:134-142 | Registering a laid-out chain on a well-formed space keeps it well formed. It adds as many bodies and shapes as there are links, and one constraint fewer. |
| SwingProperties.CreateRegistersFreshHandles | src/objects/swing.py:126-142 | Swing.create registers max(1, num_links) fresh bodies and shapes and num_links - 1 fresh constraints, and keeps the space well formed. |
| SwingProperties.RemoveFreshChain | src/objects/swing.py:102-103 | Removing a freshly registered chain gives back the space it was registered on. Only the counter differs. |
| SwingProperties.CreateThenRemove | src/objects/swing.py:151-153 | Creating a swing and then removing it leaves every registered set and the force log as they were. |
| SwingProperties.TopLinkAndSeat | src/objects/swing.py:114-124 | num_links is max(1, num_links of the config). top_link is the static link 0 and seat is the last link. They coincide if and only if num_links <= 1. |
| SwingProperties.UpdateAfterCreateIsDragFree | src/objects/swing.py:147-149 | The first update after creation applies a zero force to each link, on its body, at its position. |
| Stickmen.HeadConfigFrom | src/objects/stickman.py:20-28 | The head config keeps radius, mass, start angle and angle limits from the parsed config, and adds the group. |
| Stickmen.LimbConfigFrom | src/objects/stickman.py:128-136 | The limb config keeps length, mass, start angle and angle limits from the parsed config, and adds the group. |
| Stickmen.StartHeadPosition | src/objects/stickman.py:40-42 | A plain accessor for the body's position (also Head.position, lines 52-54). Stickmen.HeadFromConfig says where a head starts, and StickmanProperties.CreatePlacesParts gives the created head's start in closed form. |
| Stickmen.StartLimbPosition | src/objects/stickman.py:148-150 | A plain accessor for the body's position (also Limb.position, lines 160-162). Stickmen.LimbFromConfig says where a limb starts, and StickmanProperties.CreatePlacesParts gives every created limb's start in closed form. |
| Stickmen.EndHeadPosition | src/objects/stickman.py:44-46 | For a head shaped as generate builds it, the end position is the start position plus the offset of the head's circle, which is radius along the start angle. |
| Stickmen.EndLimbPosition | src/objects/stickman.py:152-154 | For a limb shaped as generate builds it, the end position is the start position plus the far end of the limb's segment, which is length along the start angle. |
| Stickmen.Offset | src/objects/stickman.py:202-203 | Given an offset, the start is start_pos plus that offset. With no offset, or the zero offset, it is start_pos. |
| Stickmen.GenerateHead | src/objects/stickman.py:68-85 | A new head is a dynamic body at rest at its start. Its circle of the config's radius is centred one radius along the head's angle, in the config's group. It registers one body and one shape. |
| Stickmen.GenerateLimb | src/objects/stickman.py:179-196 | A new limb is a dynamic body at rest at its start. Its segment runs from the body's origin one length along the limb's angle, with thickness 3, in the config's group. It registers one body and one shape. |
| Stickmen.HeadFromConfig | src/objects/stickman.py:87-101 | A head built from a config keeps that config. It starts at start_pos, or at start_pos plus the offset when an offset is given. |
| Stickmen.LimbFromConfig | src/objects/stickman.py:198-212 | A limb built from a config keeps that config. It starts at start_pos, or at start_pos plus the offset when an offset is given. |
| Stickmen.BuildLower | src/objects/stickman.py:267-276 | The foot starts at start_pos. The lower leg is its own length above the foot, the upper leg its own length left of the lower leg, and the torso its own length above the upper leg. Each carries its own config, and they take eight fresh handles in that order. |
| Stickmen.BuildUpper | src/objects/stickman.py:277-280 | The upper arm and neck start at the torso's start. The lower arm starts at the upper arm's end and the head at the neck's end. Each carries its own config, and they take eight fresh handles in that order. |
| Stickmen.Create | src/objects/stickman.py:254-281 | With the fields stored by name, every part of the stickman carries the config of its own name and the stickman's group. |
| Stickmen.CreateAsWritten | src/objects/stickman.py:281 | As written, the lower_leg field holds the part built from the upper-leg config, and the upper_leg field holds the part built from the lower-leg config. startPos and the other six fields carry the config of their own name and the group. |
| Stickmen.BodyParts | src/objects/stickman.py:241-252 | body_parts lists the eight parts in the order head, neck, upper arm, lower arm, torso, upper leg, lower leg, foot. |
| Stickmen.Update | src/objects/stickman.py:283-285 | The stickman's update appends eight forces, force i belonging to body_parts[i], and changes nothing else. |
| StickmanProperties.FromConfigOffsetTranslates | src/objects/stickman.py:198-212 | Building with an offset is building at start_pos + offset with no offset. The zero offset changes nothing. |
| StickmanProperties.EndIsShapeTip | src/objects/stickman.py:152-154 | A limb's end position is the far end of its own segment, and a head's end position is the centre of its own circle. |
| StickmanProperties.CreatePlacesParts | src/objects/stickman.py:267-280 | Closed-form positions: the torso starts at start_pos + (-upper_leg, -lower_leg - torso). The upper arm and neck start there too, and the lower arm and head one part length along their angles. |
| StickmanProperties.CreateJoinsAtEnds | src/objects/stickman.py:277-280 | The lower arm starts at the upper arm's end and the head at the neck's end. The upper arm, neck and torso share one start. |
| StickmanProperties.LegsIgnoreAngles | src/objects/stickman.py:267-276 | Legs, torso, upper arm and neck depend only on start_pos and the three lengths. Angles, group and space have no effect. |
| StickmanProperties.CreateExample | src/objects/stickman.py:267-276 | A foot at (100, 500) with lengths 80, 80, 100 puts the lower leg at (100, 420), the upper leg at (20, 420) and the torso at (20, 320). |
| StickmanProperties.CreateSharesGroup | src/objects/stickman.py:258-265 | Every part's config and shape carry the stickman's group. Every shape is on its own part's body, and every body starts at rest. |
| StickmanProperties.AsWrittenSharesGroup | src/objects/stickman.py:254-281 | The stickman as written also carries the group on every config and shape, each shape on its own part's body, every body at rest. |
| StickmanProperties.PartsShared | src/objects/stickman.py:241-252 | For parts shaped as generate builds them, from configs of one group and at rest, every entry of body_parts has a shape of that group on its own body, at rest. |
| StickmanProperties.CreatedIds | src/objects/stickman.py:241-252 | In body_parts order, the bodies hold the handles allocated foot first, two per part. |
| StickmanProperties.AsWrittenIds | src/objects/stickman.py:281 | As written, body_parts slot 5 holds the lower leg's body (handed out second) and slot 6 the upper leg's (handed out third), the reverse of create. |
| StickmanProperties.CreatedShapeIds | src/objects/stickman.py:241-252 | In body_parts order, each part's shape holds the handle allocated right after its body's. |
| StickmanProperties.AsWrittenShapeIds | src/objects/stickman.py:281 | As written, body_parts slots 5 and 6 hold the lower leg's and the upper leg's shapes, the reverse of create. |
| StickmanProperties.CreatedSpace | src/objects/stickman.py:267-280 | create registers the eight even handles from the counter as bodies and the eight odd ones as shapes. It adds no constraint and no force. |
| StickmanProperties.LowerRegistersFour | src/objects/stickman.py:267-276 | The lower half adds four bodies and four shapes and keeps the space well formed. |
| StickmanProperties.UpperRegistersFour | src/objects/stickman.py:277-280 | The upper half adds four bodies and four shapes and keeps the space well formed. |
| StickmanProperties.CreatedBodiesAreParts | src/objects/stickman.py:254-281 | The bodies create registers are exactly the bodies of the stickman's parts. |
| StickmanProperties.CreatedShapesAreParts | src/objects/stickman.py:254-281 | The shapes create registers are exactly the shapes of the stickman's parts. |
| StickmanProperties.CreateRegistersEightParts | src/objects/stickman.py:254-281 | create keeps the space well formed. It adds exactly its parts' eight bodies and its parts' eight shapes, and no constraint or force. |
| StickmanProperties.AsWrittenRegistersEightParts | src/objects/stickman.py:254-281 | The stickman as written keeps the space well formed and adds exactly its parts' eight bodies and eight shapes, and no constraint or force. |
| StickmanProperties.AsWrittenSameRegistrations | src/objects/stickman.py:281 | Swapping the legs changes neither the resulting space nor the sets of bodies and shapes the stickman owns. |
| StickmanProperties.BodyPartsDistinct | src/objects/stickman.py:241-252 | body_parts lists eight parts with pairwise distinct bodies. |
| StickmanProperties.AsWrittenBodyPartsDistinct | src/objects/stickman.py:281 | The stickman as written also lists eight parts with pairwise distinct bodies. |
| StickmanProperties.ForwardsOncePerPart | src/objects/stickman.py:283-285 | For any stickman whose parts have distinct bodies, update applies exactly one of its eight new forces to each part's body, at that part's position. |
| StickmanProperties.UpdateForwardsOncePerPart | src/objects/stickman.py:283-285 | An update of a created stickman applies exactly one of its eight forces to each part's body, at that part's position. |
| StickmanProperties.AsWrittenUpdateForwardsOncePerPart | src/objects/stickman.py:281-285 | The update of the stickman as written also applies exactly one force to each part's body, at its position. |
| StickmanProperties.RestingUpdateIsDragFree | src/objects/stickman.py:283-285 | For any stickman whose parts are all at rest, update applies eight zero forces. |
| StickmanProperties.UpdateAfterCreateIsDragFree | src/objects/stickman.py:283-285 | The first update after create applies eight zero forces. |
| StickmanProperties.AsWrittenUpdateIsDragFree | src/objects/stickman.py:281-285 | The first update of the stickman as written also applies eight zero forces. |
| StickmanProperties.AsWrittenSwapsLegs | src/objects/stickman.py:281 | The stickman as written is the corrected one with its upper_leg and lower_leg fields exchanged and nothing else changed, and the space is the same. So body_parts slots 5 and 6 are swapped, and the upper_leg field starts straight above the foot. |
| StickmanProperties.AsWrittenExample | src/objects/stickman.py:281 | With a lower leg of 80 and an upper leg of 60, the upper_leg field reports length 80 at (100, 420). |

## Left out

- `src/pg/app.py` and `src/config.py`: drawing, the event loop, and loading `swing.json` and `stickman.json` with `json.load` are outside the core. The model takes the parsed records as parameters.
- Python floats are modelled as exact reals (`real`). Rounding and underflow are not modelled, so the closed-form positions of SwingProperties.CreatePlacesLinks and StickmanProperties.CreatePlacesParts, and the zero-if-and-only-if of World.DragZeroExactly, hold over the reals only: in floats, repeated addition can differ from the closed form in the last digit, and `speed**2` can underflow to zero for a tiny nonzero velocity.
- The `dir_vec` trigonometry, the square root in `normalized_and_length`, and pymunk's shape areas are not computed. They are parameters in `World.Physics`. Lemmas that need a fact about them, such as a zero length for the zero vector, state it as a precondition.
- World.DragForce: the speed is the `length` value passed in, not a computed square root. The properties hold for any non-negative speed that is zero exactly at rest.
- Moments of inertia (`np.pi / 4 * r**4`, `length / 12`) are not modelled, nor the infinite moment a static body gets. Nothing in the core reads them back. A static body's mass is modelled as `World.Infinite`.
- The simulation step (integration, collision, and solving the pin joints) belongs to pymunk. Positions and velocities are therefore those at creation.
- pymunk's own checks in `space.add` and `space.remove` (an object added twice, or removed while absent) are not modelled as errors. Instead, the creation lemmas show that every handle added is fresh, and `SwingProperties.RemoveFreshChain` shows that removal takes away exactly what creation added.
- `joint_motor` (set to 1 by `generate` and otherwise unused) and the `angle_constraints` values are carried unread. No code applies either of them.
- The stickman has no `remove` operation in the code, so none is modelled.

## Findings

| source | as written | input that shows it | evidently intended | confidence | as-written member | corrected member |
|---|---|---|---|---|---|---|
| src/objects/stickman.py:281 | `cls(space, start_pos, head, neck, upper_arm, lower_arm, torso, upper_leg, lower_leg, foot)` passes the legs positionally, but the dataclass declares `lower_leg` before `upper_leg` (lines 237-238). The fields therefore hold each other's limbs. | Lower leg 80 and upper leg 60, foot at (100, 500): `stickman.upper_leg` has length 80 and sits at (100, 420). `lower_leg` sits at (40, 420). `body_parts` lists them in swapped order. | Each field holds the limb built from the config of the same name. | not executed | Stickmen.CreateAsWritten, StickmanProperties.AsWrittenSwapsLegs | Stickmen.Create |

=== FILE: config_types.dfy ===
/** The configuration records the core is built from (src/data_types.py),
    already parsed from JSON by the caller. */
module ConfigTypes {

  datatype SwingConfigType = SwingConfigType(
    startAngle: real,
    numLinks: int,
    linkLength: real,
    linkMass: real,
    linkRadius: real)

  /** Angle limits in degrees, (min, max). */
  type AngleConstraints = (real, real)

  datatype HeadConfigType = HeadConfigType(
    radius: real,
    mass: real,
    startAngle: real,
    angleConstraints: AngleConstraints)

  datatype LimbConfigType = LimbConfigType(
    length: real,
    mass: real,
    startAngle: real,
    angleConstraints: AngleConstraints)

  datatype StickmanConfigType = StickmanConfigType(
    head: HeadConfigType,
    neck: LimbConfigType,
    upperArm: LimbConfigType,
    lowerArm: LimbConfigType,
    torso: LimbConfigType,
    upperLeg: LimbConfigType,
    lowerLeg: LimbConfigType,
    foot: LimbConfigType)
}

=== FILE: geometry.dfy ===
/** Plane vectors over the reals and the numeric constants of the simulation
    (src/constants.py). Trigonometry is not modelled here: the direction
    vector of an angle is supplied by the caller (see World.Physics). */
module Geometry {

  /** A 2D vector, the model of pymunk's Vec2d. */
  datatype Vec2 = Vec2(x: real, y: real)

  const Zero: Vec2 := Vec2(0.0, 0.0)

  /** The reference direction every angle is measured from: straight down
      in screen coordinates. */
  const NORM_VECTOR: Vec2 := Vec2(0.0, -1.0)

  const AIR_DENSITY: real := 0.45
  const DRAG_COEFFICIENT: real := 0.025

  function Add(a: Vec2, b: Vec2): Vec2 {
    Vec2(a.x + b.x, a.y + b.y)
  }

  function Neg(a: Vec2): Vec2 {
    Vec2(-a.x, -a.y)
  }

  /** `a * k` in the Python code. */
  function Scale(k: real, a: Vec2): Vec2 {
    Vec2(k * a.x, k * a.y)
  }

  function Dot(a: Vec2, b: Vec2): real {
    a.x * b.x + a.y * b.y
  }
}

/** The optional value of the Python code's `X | None` parameters. */
module Options {

  datatype Option<+T> = None | Some(value: T)
}

=== FILE: stickman.dfy ===
/** The stickman of src/objects/stickman.py: eight body parts placed from
    the foot upward by vector arithmetic, sharing one collision group and
    joined by nothing. */
module Stickmen {
  import opened Geometry
  import opened Options
  import opened World
  import opened ConfigTypes

  /** Half-width of every limb's collision segment. */
  const LIMB_THICKNESS: real := 3.0

  datatype HeadConfig = HeadConfig(
    radius: real,
    mass: real,
    startAngle: real,
    angleConstraints: AngleConstraints,
    group: int)

  datatype LimbConfig = LimbConfig(
    length: real,
    mass: real,
    startAngle: real,
    angleConstraints: AngleConstraints,
    group: int)

  /** HeadConfig.from_config: the parsed head settings with the stickman's
      collision group added. */
  function HeadConfigFrom(config: HeadConfigType, group: int): (c: HeadConfig)
    ensures HeadConfigType(c.radius, c.mass, c.startAngle, c.angleConstraints) == config
    ensures c.group == group
  {
    HeadConfig(config.radius, config.mass, config.startAngle, config.angleConstraints, group)
  }

  /** LimbConfig.from_config: the parsed limb settings with the stickman's
      collision group added. */
  function LimbConfigFrom(config: LimbConfigType, group: int): (c: LimbConfig)
    ensures LimbConfigType(c.length, c.mass, c.startAngle, c.angleConstraints) == config
    ensures c.group == group
  {
    LimbConfig(config.length, config.mass, config.startAngle, config.angleConstraints, group)
  }

  datatype Head = Head(config: HeadConfig, startPos: Vec2, part: RigidPart)

  datatype Limb = Limb(config: LimbConfig, startPos: Vec2, part: RigidPart)

  datatype Stickman = Stickman(
    startPos: Vec2,
    head: Head,
    neck: Limb,
    upperArm: Limb,
    lowerArm: Limb,
    torso: Limb,
    lowerLeg: Limb,
    upperLeg: Limb,
    foot: Limb)

  /** Head.start_head_position (and Head.position). */
  function StartHeadPosition(head: Head): Vec2 {
    head.part.body.position
  }

  /** Head.end_head_position: for a head built by generate, the centre of
      its own circle. */
  function EndHeadPosition(head: Head, phys: Physics): (p: Vec2)
    ensures HeadShaped(head, phys) ==> p == Add(StartHeadPosition(head), head.part.shape.outline.offset)
  {
    Add(head.part.body.position, Scale(head.config.radius, phys.dirVec(head.config.startAngle)))
  }

  /** Limb.start_limb_position (and Limb.position). */
  function StartLimbPosition(limb: Limb): Vec2 {
    limb.part.body.position
  }

  /** Limb.end_limb_position: for a limb built by generate, the far end of
      its own segment. */
  function EndLimbPosition(limb: Limb, phys: Physics): (p: Vec2)
    ensures LimbShaped(limb, phys) ==> p == Add(StartLimbPosition(limb), limb.part.shape.outline.b)
  {
    Add(limb.part.body.position, Scale(limb.config.length, phys.dirVec(limb.config.startAngle)))
  }

  /** A head as Head.generate builds it: a circle of the config's radius
      whose centre lies one radius from the body along the head's angle. */
  ghost predicate HeadShaped(head: Head, phys: Physics) {
    && head.part.body.mass == Finite(head.config.mass)
    && head.part.body.position == head.startPos
    && head.part.shape.body == head.part.body.id
    && head.part.shape.outline == Circle(head.config.radius, Scale(head.config.radius, phys.dirVec(head.config.startAngle)))
    && head.part.shape.group == head.config.group
  }

  /** A limb as Limb.generate builds it: a segment from the body's origin to
      one limb length along the limb's angle. */
  ghost predicate LimbShaped(limb: Limb, phys: Physics) {
    && limb.part.body.mass == Finite(limb.config.mass)
    && limb.part.body.position == limb.startPos
    && limb.part.shape.body == limb.part.body.id
    && limb.part.shape.outline == SegmentLine(Zero, Scale(limb.config.length, phys.dirVec(limb.config.startAngle)), LIMB_THICKNESS)
    && limb.part.shape.group == limb.config.group
  }

  /** Head.generate: a fresh head at rest at `startPos`. */
  function GenerateHead(s: Space, startPos: Vec2, radius: real, mass: real, startAngle: real,
                        angleConstraints: AngleConstraints, group: int, phys: Physics): (r: (Head, Space))
    ensures r.0.config == HeadConfig(radius, mass, startAngle, angleConstraints, group)
    ensures HeadShaped(r.0, phys) && r.0.startPos == startPos
    ensures r.0.part.body.velocity == Zero && r.0.part.body.kind == Dynamic
    ensures r.0.part.body.id == s.next && r.0.part.shape.id == s.next + 1
    ensures r.1 == s.(bodies := s.bodies + {s.next}, shapes := s.shapes + {s.next + 1}, next := s.next + 2)
  {
    var config := HeadConfig(radius, mass, startAngle, angleConstraints, group);
    var headDir := phys.dirVec(config.startAngle);
    var (part, s1) := NewPart(s, startPos, config.mass, Circle(config.radius, Scale(config.radius, headDir)), group);
    (Head(config, startPos, part), s1)
  }

  /** Limb.generate: a fresh limb at rest at `startPos`. */
  function GenerateLimb(s: Space, startPos: Vec2, length: real, mass: real, startAngle: real,
                        angleConstraints: AngleConstraints, group: int, phys: Physics): (r: (Limb, Space))
    ensures r.0.config == LimbConfig(length, mass, startAngle, angleConstraints, group)
    ensures LimbShaped(r.0, phys) && r.0.startPos == startPos
    ensures r.0.part.body.velocity == Zero && r.0.part.body.kind == Dynamic
    ensures r.0.part.body.id == s.next && r.0.part.shape.id == s.next + 1
    ensures r.1 == s.(bodies := s.bodies + {s.next}, shapes := s.shapes + {s.next + 1}, next := s.next + 2)
  {
    var config := LimbConfig(length, mass, startAngle, angleConstraints, group);
    var limbDir := phys.dirVec(config.startAngle);
    var (part, s1) := NewPart(s, startPos, config.mass, SegmentLine(Zero, Scale(config.length, limbDir), LIMB_THICKNESS), group);
    (Limb(config, startPos, part), s1)
  }

  /** `if offset: start_pos += offset`. An offset is a 2-tuple, which Python
      treats as true even when it is (0, 0), so only a missing offset
      leaves the start position alone. */
  function Offset(startPos: Vec2, offset: Option<Vec2>): (p: Vec2)
    ensures offset.Some? ==> p == Add(startPos, offset.value)
    ensures offset == None || offset == Some(Zero) ==> p == startPos
  {
    if offset.Some? then Add(startPos, offset.value) else startPos
  }

  /** Head.from_config. */
  function HeadFromConfig(config: HeadConfig, s: Space, startPos: Vec2, offset: Option<Vec2>, phys: Physics): (r: (Head, Space))
    ensures r.0.config == config && HeadShaped(r.0, phys)
    ensures offset.None? ==> StartHeadPosition(r.0) == startPos
    ensures offset.Some? ==> StartHeadPosition(r.0) == Add(startPos, offset.value)
    ensures r.0.part.body.velocity == Zero && r.0.part.body.kind == Dynamic
    ensures r.0.part.body.id == s.next && r.0.part.shape.id == s.next + 1
    ensures r.1 == s.(bodies := s.bodies + {s.next}, shapes := s.shapes + {s.next + 1}, next := s.next + 2)
  {
    var pos := Offset(startPos, offset);
    GenerateHead(s, pos, config.radius, config.mass, config.startAngle, config.angleConstraints, config.group, phys)
  }

  /** Limb.from_config. */
  function LimbFromConfig(config: LimbConfig, s: Space, startPos: Vec2, offset: Option<Vec2>, phys: Physics): (r: (Limb, Space))
    ensures r.0.config == config && LimbShaped(r.0, phys)
    ensures offset.None? ==> StartLimbPosition(r.0) == startPos
    ensures offset.Some? ==> StartLimbPosition(r.0) == Add(startPos, offset.value)
    ensures r.0.part.body.velocity == Zero && r.0.part.body.kind == Dynamic
    ensures r.0.part.body.id == s.next && r.0.part.shape.id == s.next + 1
    ensures r.1 == s.(bodies := s.bodies + {s.next}, shapes := s.shapes + {s.next + 1}, next := s.next + 2)
  {
    var pos := Offset(startPos, offset);
    GenerateLimb(s, pos, config.length, config.mass, config.startAngle, config.angleConstraints, config.group, phys)
  }

  /** The first half of Stickman.create: the foot at `startPos`, then the
      lower leg, upper leg and torso, each offset from its predecessor's
      start along a world axis by its own length. */
  function BuildLower(config: StickmanConfigType, s: Space, startPos: Vec2, group: int, phys: Physics): (r: (Limb, Limb, Limb, Limb, Space))
    ensures r.0.config == LimbConfigFrom(config.foot, group)
    ensures r.1.config == LimbConfigFrom(config.lowerLeg, group)
    ensures r.2.config == LimbConfigFrom(config.upperLeg, group)
    ensures r.3.config == LimbConfigFrom(config.torso, group)
    ensures StartLimbPosition(r.0) == startPos
    ensures StartLimbPosition(r.1) == Add(StartLimbPosition(r.0), Vec2(0.0, -config.lowerLeg.length))
    ensures StartLimbPosition(r.2) == Add(StartLimbPosition(r.1), Vec2(-config.upperLeg.length, 0.0))
    ensures StartLimbPosition(r.3) == Add(StartLimbPosition(r.2), Vec2(0.0, -config.torso.length))
    ensures LimbShaped(r.0, phys) && LimbShaped(r.1, phys) && LimbShaped(r.2, phys) && LimbShaped(r.3, phys)
    ensures r.0.part.body.velocity == Zero && r.1.part.body.velocity == Zero
    ensures r.2.part.body.velocity == Zero && r.3.part.body.velocity == Zero
    ensures r.0.part.body.id == s.next && r.1.part.body.id == s.next + 2
    ensures r.2.part.body.id == s.next + 4 && r.3.part.body.id == s.next + 6
    ensures r.0.part.shape.id == s.next + 1 && r.1.part.shape.id == s.next + 3
    ensures r.2.part.shape.id == s.next + 5 && r.3.part.shape.id == s.next + 7
    ensures r.4.bodies == s.bodies + {s.next, s.next + 2, s.next + 4, s.next + 6}
    ensures r.4.shapes == s.shapes + {s.next + 1, s.next + 3, s.next + 5, s.next + 7}
    ensures r.4.constraints == s.constraints && r.4.forces == s.forces && r.4.next == s.next + 8
  {
    var torsoConfig := LimbConfigFrom(config.torso, group);
    var upperLegConfig := LimbConfigFrom(config.upperLeg, group);
    var lowerLegConfig := LimbConfigFrom(config.lowerLeg, group);
    var footConfig := LimbConfigFrom(config.foot, group);

    var (foot, s1) := LimbFromConfig(footConfig, s, startPos, None, phys);
    var (lowerLeg, s2) := LimbFromConfig(lowerLegConfig, s1, StartLimbPosition(foot), Some(Neg(Vec2(0.0, lowerLegConfig.length))), phys);
    var (upperLeg, s3) := LimbFromConfig(upperLegConfig, s2, StartLimbPosition(lowerLeg), Some(Neg(Vec2(upperLegConfig.length, 0.0))), phys);
    var (torso, s4) := LimbFromConfig(torsoConfig, s3, StartLimbPosition(upperLeg), Some(Neg(Vec2(0.0, torsoConfig.length))), phys);
    (foot, lowerLeg, upperLeg, torso, s4)
  }

  /** The second half of Stickman.create: the upper arm and the neck at the
      torso's start, the lower arm at the upper arm's end and the head at
      the neck's end. */
  function BuildUpper(config: StickmanConfigType, s: Space, torso: Limb, group: int, phys: Physics): (r: (Limb, Limb, Limb, Head, Space))
    ensures r.0.config == LimbConfigFrom(config.upperArm, group)
    ensures r.1.config == LimbConfigFrom(config.lowerArm, group)
    ensures r.2.config == LimbConfigFrom(config.neck, group)
    ensures r.3.config == HeadConfigFrom(config.head, group)
    ensures StartLimbPosition(r.0) == StartLimbPosition(torso)
    ensures StartLimbPosition(r.1) == EndLimbPosition(r.0, phys)
    ensures StartLimbPosition(r.2) == StartLimbPosition(torso)
    ensures StartHeadPosition(r.3) == EndLimbPosition(r.2, phys)
    ensures LimbShaped(r.0, phys) && LimbShaped(r.1, phys) && LimbShaped(r.2, phys) && HeadShaped(r.3, phys)
    ensures r.0.part.body.velocity == Zero && r.1.part.body.velocity == Zero
    ensures r.2.part.body.velocity == Zero && r.3.part.body.velocity == Zero
    ensures r.0.part.body.id == s.next && r.1.part.body.id == s.next + 2
    ensures r.2.part.body.id == s.next + 4 && r.3.part.body.id == s.next + 6
    ensures r.0.part.shape.id == s.next + 1 && r.1.part.shape.id == s.next + 3
    ensures r.2.part.shape.id == s.next + 5 && r.3.part.shape.id == s.next + 7
    ensures r.4.bodies == s.bodies + {s.next, s.next + 2, s.next + 4, s.next + 6}
    ensures r.4.shapes == s.shapes + {s.next + 1, s.next + 3, s.next + 5, s.next + 7}
    ensures r.4.constraints == s.constraints && r.4.forces == s.forces && r.4.next == s.next + 8
  {
    var headConfig := HeadConfigFrom(config.head, group);
    var neckConfig := LimbConfigFrom(config.neck, group);
    var upperArmConfig := LimbConfigFrom(config.upperArm, group);
    var lowerArmConfig := LimbConfigFrom(config.lowerArm, group);

    var (upperArm, s5) := LimbFromConfig(upperArmConfig, s, StartLimbPosition(torso), None, phys);
    var (lowerArm, s6) := LimbFromConfig(lowerArmConfig, s5, EndLimbPosition(upperArm, phys), None, phys);
    var (neck, s7) := LimbFromConfig(neckConfig, s6, StartLimbPosition(torso), None, phys);
    var (head, s8) := HeadFromConfig(headConfig, s7, EndLimbPosition(neck, phys), None, phys);
    (upperArm, lowerArm, neck, head, s8)
  }

  /** Stickman.create with each part stored under its own name. */
  function Create(config: StickmanConfigType, s: Space, startPos: Vec2, group: int, phys: Physics): (r: (Stickman, Space))
    ensures r.0.startPos == startPos
    ensures r.0.head.config == HeadConfigFrom(config.head, group)
    ensures r.0.neck.config == LimbConfigFrom(config.neck, group)
    ensures r.0.upperArm.config == LimbConfigFrom(config.upperArm, group)
    ensures r.0.lowerArm.config == LimbConfigFrom(config.lowerArm, group)
    ensures r.0.torso.config == LimbConfigFrom(config.torso, group)
    ensures r.0.lowerLeg.config == LimbConfigFrom(config.lowerLeg, group)
    ensures r.0.upperLeg.config == LimbConfigFrom(config.upperLeg, group)
    ensures r.0.foot.config == LimbConfigFrom(config.foot, group)
  {
    var (foot, lowerLeg, upperLeg, torso, s4) := BuildLower(config, s, startPos, group, phys);
    var (upperArm, lowerArm, neck, head, s8) := BuildUpper(config, s4, torso, group, phys);
    (Stickman(startPos, head, neck, upperArm, lowerArm, torso, lowerLeg, upperLeg, foot), s8)
  }

  /** Stickman.create as written: the parts are passed positionally as
      (..., torso, upper_leg, lower_leg, foot) while the fields are declared
      as (..., torso, lower_leg, upper_leg, foot). */
  function CreateAsWritten(config: StickmanConfigType, s: Space, startPos: Vec2, group: int, phys: Physics): (r: (Stickman, Space))
    ensures r.0.startPos == startPos
    ensures r.0.head.config == HeadConfigFrom(config.head, group)
    ensures r.0.neck.config == LimbConfigFrom(config.neck, group)
    ensures r.0.upperArm.config == LimbConfigFrom(config.upperArm, group)
    ensures r.0.lowerArm.config == LimbConfigFrom(config.lowerArm, group)
    ensures r.0.torso.config == LimbConfigFrom(config.torso, group)
    ensures r.0.lowerLeg.config == LimbConfigFrom(config.upperLeg, group)
    ensures r.0.upperLeg.config == LimbConfigFrom(config.lowerLeg, group)
    ensures r.0.foot.config == LimbConfigFrom(config.foot, group)
  {
    var (foot, lowerLeg, upperLeg, torso, s4) := BuildLower(config, s, startPos, group, phys);
    var (upperArm, lowerArm, neck, head, s8) := BuildUpper(config, s4, torso, group, phys);
    (Stickman(startPos, head, neck, upperArm, lowerArm, torso, upperLeg, lowerLeg, foot), s8)
  }

  /** Stickman.body_parts: all eight parts, head first and foot last, with
      the upper leg before the lower leg (the reverse of the field order). */
  function BodyParts(st: Stickman): (ps: seq<RigidPart>)
    ensures |ps| == 8 && ps[0] == st.head.part && ps[7] == st.foot.part
    ensures ps[1] == st.neck.part && ps[2] == st.upperArm.part && ps[3] == st.lowerArm.part && ps[4] == st.torso.part
    ensures ps[5] == st.upperLeg.part && ps[6] == st.lowerLeg.part
  {
    [st.head.part, st.neck.part, st.upperArm.part, st.lowerArm.part,
     st.torso.part, st.upperLeg.part, st.lowerLeg.part, st.foot.part]
  }

  /** Stickman.update: every body part's update, in body_parts order. */
  function Update(st: Stickman, s: Space, phys: Physics): (r: Space)
    ensures r == s.(forces := r.forces)
    ensures |r.forces| == |s.forces| + 8
    ensures r.forces[..|s.forces|] == s.forces
    ensures forall i :: 0 <= i < 8 ==> r.forces[|s.forces| + i] == PartForce(BodyParts(st)[i], phys)
  {
    UpdateAll(BodyParts(st), s, phys)
  }
}

=== FILE: stickman_properties.dfy ===
/** What Stickman.create and Stickman.update promise about the skeleton as
    a whole: where each part is placed, what it carries, what it registers
    and how the per-tick drag is forwarded. */
module StickmanProperties {
  import opened Geometry
  import opened Options
  import opened World
  import opened ConfigTypes
  import opened Stickmen

  /** An offset given to from_config is a plain translation of the start
      position, the zero offset included. */
  lemma FromConfigOffsetTranslates(config: LimbConfig, headConfig: HeadConfig, s: Space, startPos: Vec2, offset: Vec2, phys: Physics)
    ensures LimbFromConfig(config, s, startPos, Some(offset), phys) == LimbFromConfig(config, s, Add(startPos, offset), None, phys)
    ensures HeadFromConfig(headConfig, s, startPos, Some(offset), phys) == HeadFromConfig(headConfig, s, Add(startPos, offset), None, phys)
    ensures LimbFromConfig(config, s, startPos, Some(Zero), phys) == LimbFromConfig(config, s, startPos, None, phys)
  {
    assert Add(startPos, Zero) == startPos;
  }

  /** A limb's end position is the far end of its own collision segment,
      and a head's end position is the centre of its own circle. */
  lemma EndIsShapeTip(limb: Limb, head: Head, phys: Physics)
    requires LimbShaped(limb, phys) && HeadShaped(head, phys)
    ensures EndLimbPosition(limb, phys) == Add(StartLimbPosition(limb), limb.part.shape.outline.b)
    ensures limb.part.shape.outline.a == Zero
    ensures EndHeadPosition(head, phys) == Add(StartHeadPosition(head), head.part.shape.outline.offset)
    ensures head.part.shape.outline.radius == head.config.radius
  {
  }

  /** Stickman.create assembles its two halves: the lower half gives the
      foot, legs and torso, the upper half (built on the lower half's space
      from its torso) the arms, neck and head and the final space. As
      written, the two legs trade fields. */
  lemma CreateComposes(config: StickmanConfigType, s: Space, startPos: Vec2, group: int, phys: Physics)
    ensures var lower := BuildLower(config, s, startPos, group, phys);
      var upper := BuildUpper(config, lower.4, lower.3, group, phys);
      && Create(config, s, startPos, group, phys)
         == (Stickman(startPos, upper.3, upper.2, upper.0, upper.1, lower.3, lower.1, lower.2, lower.0), upper.4)
      && CreateAsWritten(config, s, startPos, group, phys)
         == (Stickman(startPos, upper.3, upper.2, upper.0, upper.1, lower.3, lower.2, lower.1, lower.0), upper.4)
  {
  }

  /** Where Stickman.create puts every part, in terms of the start position,
      the part lengths and the two arm and neck directions only. */
  lemma CreatePlacesParts(config: StickmanConfigType, s: Space, startPos: Vec2, group: int, phys: Physics)
    ensures var st := Create(config, s, startPos, group, phys).0;
      var torso := Add(startPos, Vec2(-config.upperLeg.length, -config.lowerLeg.length - config.torso.length));
      && StartLimbPosition(st.foot) == startPos
      && StartLimbPosition(st.lowerLeg) == Add(startPos, Vec2(0.0, -config.lowerLeg.length))
      && StartLimbPosition(st.upperLeg) == Add(startPos, Vec2(-config.upperLeg.length, -config.lowerLeg.length))
      && StartLimbPosition(st.torso) == torso
      && StartLimbPosition(st.upperArm) == torso
      && StartLimbPosition(st.neck) == torso
      && StartLimbPosition(st.lowerArm) == Add(torso, Scale(config.upperArm.length, phys.dirVec(config.upperArm.startAngle)))
      && StartHeadPosition(st.head) == Add(torso, Scale(config.neck.length, phys.dirVec(config.neck.startAngle)))
  {
    var lower := BuildLower(config, s, startPos, group, phys);
    var upper := BuildUpper(config, lower.4, lower.3, group, phys);
    CreateComposes(config, s, startPos, group, phys);
    var torso := Add(startPos, Vec2(-config.upperLeg.length, -config.lowerLeg.length - config.torso.length));
    assert StartLimbPosition(lower.3) == torso;
  }

  /** The lower arm hangs off the end of the upper arm and the head off the
      end of the neck; the upper arm and the neck branch from one point. */
  lemma CreateJoinsAtEnds(config: StickmanConfigType, s: Space, startPos: Vec2, group: int, phys: Physics)
    ensures var st := Create(config, s, startPos, group, phys).0;
      && StartLimbPosition(st.lowerArm) == EndLimbPosition(st.upperArm, phys)
      && StartHeadPosition(st.head) == EndLimbPosition(st.neck, phys)
      && StartLimbPosition(st.upperArm) == StartLimbPosition(st.neck) == StartLimbPosition(st.torso)
  {
  }

  /** Leg and torso placement uses world axes only: two configs that agree on
      the foot, leg and torso lengths place the legs, the torso and the
      branch point identically, whatever the start angles and whatever
      directions the angles map to. */
  lemma LegsIgnoreAngles(config1: StickmanConfigType, config2: StickmanConfigType, s1: Space, s2: Space,
                         startPos: Vec2, group1: int, group2: int, phys1: Physics, phys2: Physics)
    requires config1.lowerLeg.length == config2.lowerLeg.length
    requires config1.upperLeg.length == config2.upperLeg.length
    requires config1.torso.length == config2.torso.length
    ensures var a := Create(config1, s1, startPos, group1, phys1).0;
      var b := Create(config2, s2, startPos, group2, phys2).0;
      && StartLimbPosition(a.foot) == StartLimbPosition(b.foot)
      && StartLimbPosition(a.lowerLeg) == StartLimbPosition(b.lowerLeg)
      && StartLimbPosition(a.upperLeg) == StartLimbPosition(b.upperLeg)
      && StartLimbPosition(a.torso) == StartLimbPosition(b.torso)
      && StartLimbPosition(a.upperArm) == StartLimbPosition(b.upperArm)
      && StartLimbPosition(a.neck) == StartLimbPosition(b.neck)
  {
    CreatePlacesParts(config1, s1, startPos, group1, phys1);
    CreatePlacesParts(config2, s2, startPos, group2, phys2);
  }

  /** The placement of a foot at (100, 500) with lower leg, upper leg and
      torso lengths 80, 80 and 100. */
  lemma CreateExample(config: StickmanConfigType, s: Space, group: int, phys: Physics)
    requires config.lowerLeg.length == 80.0 && config.upperLeg.length == 80.0 && config.torso.length == 100.0
    ensures var st := Create(config, s, Vec2(100.0, 500.0), group, phys).0;
      && StartLimbPosition(st.foot) == Vec2(100.0, 500.0)
      && StartLimbPosition(st.lowerLeg) == Vec2(100.0, 420.0)
      && StartLimbPosition(st.upperLeg) == Vec2(20.0, 420.0)
      && StartLimbPosition(st.torso) == Vec2(20.0, 320.0)
  {
    CreatePlacesParts(config, s, Vec2(100.0, 500.0), group, phys);
  }

  /** Every part's config and shape carry the group passed to create, and
      every part starts at rest as a dynamic body with its own shape. */
  lemma CreateSharesGroup(config: StickmanConfigType, s: Space, startPos: Vec2, group: int, phys: Physics)
    ensures var st := Create(config, s, startPos, group, phys).0;
      && st.head.config.group == group
      && st.neck.config.group == group && st.upperArm.config.group == group
      && st.lowerArm.config.group == group && st.torso.config.group == group
      && st.lowerLeg.config.group == group && st.upperLeg.config.group == group
      && st.foot.config.group == group
      && forall p :: p in BodyParts(st) ==>
           p.shape.group == group && p.shape.body == p.body.id && p.body.velocity == Zero
  {
    var lower := BuildLower(config, s, startPos, group, phys);
    var upper := BuildUpper(config, lower.4, lower.3, group, phys);
    CreateComposes(config, s, startPos, group, phys);
    PartsShared(Stickman(startPos, upper.3, upper.2, upper.0, upper.1, lower.3, lower.1, lower.2, lower.0), group, phys);
  }

  /** The same holds for the stickman as written, whose leg fields are
      swapped. */
  lemma AsWrittenSharesGroup(config: StickmanConfigType, s: Space, startPos: Vec2, group: int, phys: Physics)
    ensures var st := CreateAsWritten(config, s, startPos, group, phys).0;
      && st.head.config.group == group
      && st.neck.config.group == group && st.upperArm.config.group == group
      && st.lowerArm.config.group == group && st.torso.config.group == group
      && st.lowerLeg.config.group == group && st.upperLeg.config.group == group
      && st.foot.config.group == group
      && forall p :: p in BodyParts(st) ==>
           p.shape.group == group && p.shape.body == p.body.id && p.body.velocity == Zero
  {
    var lower := BuildLower(config, s, startPos, group, phys);
    var upper := BuildUpper(config, lower.4, lower.3, group, phys);
    CreateComposes(config, s, startPos, group, phys);
    PartsShared(Stickman(startPos, upper.3, upper.2, upper.0, upper.1, lower.3, lower.2, lower.1, lower.0), group, phys);
  }

  /** Parts shaped as generate builds them, from configs carrying `group`,
      carry `group` on their shapes; parts at rest stay at rest in the list. */
  lemma PartsShared(st: Stickman, group: int, phys: Physics)
    requires HeadShaped(st.head, phys) && LimbShaped(st.neck, phys)
    requires LimbShaped(st.upperArm, phys) && LimbShaped(st.lowerArm, phys)
    requires LimbShaped(st.torso, phys) && LimbShaped(st.upperLeg, phys)
    requires LimbShaped(st.lowerLeg, phys) && LimbShaped(st.foot, phys)
    requires st.head.config.group == group && st.neck.config.group == group
    requires st.upperArm.config.group == group && st.lowerArm.config.group == group
    requires st.torso.config.group == group && st.upperLeg.config.group == group
    requires st.lowerLeg.config.group == group && st.foot.config.group == group
    requires st.head.part.body.velocity == Zero && st.neck.part.body.velocity == Zero
    requires st.upperArm.part.body.velocity == Zero && st.lowerArm.part.body.velocity == Zero
    requires st.torso.part.body.velocity == Zero && st.upperLeg.part.body.velocity == Zero
    requires st.lowerLeg.part.body.velocity == Zero && st.foot.part.body.velocity == Zero
    ensures forall p :: p in BodyParts(st) ==>
      p.shape.group == group && p.shape.body == p.body.id && p.body.velocity == Zero
  {
  }

  /** The body handles of the parts, in body_parts order. */
  function PartIds(parts: seq<RigidPart>): seq<Handle> {
    seq(|parts|, i requires 0 <= i < |parts| => parts[i].body.id)
  }

  /** The shape handles of the parts, in body_parts order. */
  function ShapeIds(parts: seq<RigidPart>): seq<Handle> {
    seq(|parts|, i requires 0 <= i < |parts| => parts[i].shape.id)
  }

  /** The bodies of a created stickman in body_parts order (head first)
      were handed out foot first, two handles per part. */
  lemma CreatedIds(config: StickmanConfigType, s: Space, startPos: Vec2, group: int, phys: Physics)
    ensures var st := Create(config, s, startPos, group, phys).0;
      var n := s.next;
      PartIds(BodyParts(st)) == [n + 14, n + 12, n + 8, n + 10, n + 6, n + 4, n + 2, n]
  {
    var lower := BuildLower(config, s, startPos, group, phys);
    var upper := BuildUpper(config, lower.4, lower.3, group, phys);
    CreateComposes(config, s, startPos, group, phys);
    PartIdsOfEight(upper.3.part, upper.2.part, upper.0.part, upper.1.part, lower.3.part, lower.2.part, lower.1.part, lower.0.part);
  }

  /** As written, the two leg slots of body_parts hold each other's bodies. */
  lemma AsWrittenIds(config: StickmanConfigType, s: Space, startPos: Vec2, group: int, phys: Physics)
    ensures var st := CreateAsWritten(config, s, startPos, group, phys).0;
      var n := s.next;
      PartIds(BodyParts(st)) == [n + 14, n + 12, n + 8, n + 10, n + 6, n + 2, n + 4, n]
  {
    var lower := BuildLower(config, s, startPos, group, phys);
    var upper := BuildUpper(config, lower.4, lower.3, group, phys);
    CreateComposes(config, s, startPos, group, phys);
    PartIdsOfEight(upper.3.part, upper.2.part, upper.0.part, upper.1.part, lower.3.part, lower.1.part, lower.2.part, lower.0.part);
  }

  /** The shapes of a created stickman in body_parts order, each handed
      out right after its part's body. */
  lemma CreatedShapeIds(config: StickmanConfigType, s: Space, startPos: Vec2, group: int, phys: Physics)
    ensures var st := Create(config, s, startPos, group, phys).0;
      var n := s.next;
      ShapeIds(BodyParts(st)) == [n + 15, n + 13, n + 9, n + 11, n + 7, n + 5, n + 3, n + 1]
  {
    var lower := BuildLower(config, s, startPos, group, phys);
    var upper := BuildUpper(config, lower.4, lower.3, group, phys);
    CreateComposes(config, s, startPos, group, phys);
    ShapeIdsOfEight(upper.3.part, upper.2.part, upper.0.part, upper.1.part, lower.3.part, lower.2.part, lower.1.part, lower.0.part);
  }

  lemma AsWrittenShapeIds(config: StickmanConfigType, s: Space, startPos: Vec2, group: int, phys: Physics)
    ensures var st := CreateAsWritten(config, s, startPos, group, phys).0;
      var n := s.next;
      ShapeIds(BodyParts(st)) == [n + 15, n + 13, n + 9, n + 11, n + 7, n + 3, n + 5, n + 1]
  {
    var lower := BuildLower(config, s, startPos, group, phys);
    var upper := BuildUpper(config, lower.4, lower.3, group, phys);
    CreateComposes(config, s, startPos, group, phys);
    ShapeIdsOfEight(upper.3.part, upper.2.part, upper.0.part, upper.1.part, lower.3.part, lower.1.part, lower.2.part, lower.0.part);
  }

  lemma ShapeIdsOfEight(p0: RigidPart, p1: RigidPart, p2: RigidPart, p3: RigidPart,
                        p4: RigidPart, p5: RigidPart, p6: RigidPart, p7: RigidPart)
    ensures ShapeIds([p0, p1, p2, p3, p4, p5, p6, p7])
         == [p0.shape.id, p1.shape.id, p2.shape.id, p3.shape.id, p4.shape.id, p5.shape.id, p6.shape.id, p7.shape.id]
  {
  }

  lemma PartIdsOfEight(p0: RigidPart, p1: RigidPart, p2: RigidPart, p3: RigidPart,
                       p4: RigidPart, p5: RigidPart, p6: RigidPart, p7: RigidPart)
    ensures PartIds([p0, p1, p2, p3, p4, p5, p6, p7])
         == [p0.body.id, p1.body.id, p2.body.id, p3.body.id, p4.body.id, p5.body.id, p6.body.id, p7.body.id]
  {
  }

  ghost predicate Distinct(ids: seq<Handle>) {
    forall i, j :: 0 <= i < j < |ids| ==> ids[i] != ids[j]
  }

  lemma HandedOutDistinct(n: Handle)
    ensures Distinct([n + 14, n + 12, n + 8, n + 10, n + 6, n + 4, n + 2, n])
    ensures Distinct([n + 14, n + 12, n + 8, n + 10, n + 6, n + 2, n + 4, n])
  {
  }

  /** The space after Stickman.create: sixteen handles handed out, the even
      ones to bodies and the odd ones to shapes. */
  lemma CreatedSpace(config: StickmanConfigType, s: Space, startPos: Vec2, group: int, phys: Physics)
    ensures var s1 := Create(config, s, startPos, group, phys).1;
      var n := s.next;
      && s1.bodies == s.bodies + {n, n + 2, n + 4, n + 6, n + 8, n + 10, n + 12, n + 14}
      && s1.shapes == s.shapes + {n + 1, n + 3, n + 5, n + 7, n + 9, n + 11, n + 13, n + 15}
      && s1.constraints == s.constraints && s1.forces == s.forces && s1.next == n + 16
  {
    var lower := BuildLower(config, s, startPos, group, phys);
    var upper := BuildUpper(config, lower.4, lower.3, group, phys);
    CreateComposes(config, s, startPos, group, phys);
    UnionOfTwoFours(s.bodies, s.next);
    UnionOfTwoFours(s.shapes, s.next + 1);
  }

  /** Two batches of four every-other handles from `m` make one of eight. */
  lemma UnionOfTwoFours(a: set<Handle>, m: Handle)
    ensures a + {m, m + 2, m + 4, m + 6} + {m + 8, m + 10, m + 12, m + 14}
         == a + {m, m + 2, m + 4, m + 6, m + 8, m + 10, m + 12, m + 14}
  {
  }

  lemma ElemsOfEight(a: Handle, b: Handle, c: Handle, d: Handle, e: Handle, f: Handle, g: Handle, h: Handle)
    ensures Elems([a, b, c, d, e, f, g, h]) == {a, b, c, d, e, f, g, h}
  {
  }

  /** Each half of the skeleton registers four fresh bodies and four fresh
      shapes and keeps the space well formed. */
  lemma LowerRegistersFour(config: StickmanConfigType, s: Space, startPos: Vec2, group: int, phys: Physics)
    requires Valid(s)
    ensures var s1 := BuildLower(config, s, startPos, group, phys).4;
      Valid(s1) && |s1.bodies| == |s.bodies| + 4 && |s1.shapes| == |s.shapes| + 4
  {
    var r := BuildLower(config, s, startPos, group, phys);
    assert FourRegistered(s, r.4);
    BelowNext(s);
    FourFreshCounts(s, r.4);
    FourFreshValid(s, r.4);
  }

  lemma UpperRegistersFour(config: StickmanConfigType, s: Space, torso: Limb, group: int, phys: Physics)
    requires Valid(s)
    ensures var s1 := BuildUpper(config, s, torso, group, phys).4;
      Valid(s1) && |s1.bodies| == |s.bodies| + 4 && |s1.shapes| == |s.shapes| + 4
  {
    var r := BuildUpper(config, s, torso, group, phys);
    assert FourRegistered(s, r.4);
    BelowNext(s);
    FourFreshCounts(s, r.4);
    FourFreshValid(s, r.4);
  }

  /** Four increasing handles at or above every member of `a` grow it by
      four. */
  lemma AddFourFresh(a: set<Handle>, grown: set<Handle>, next: Handle, x0: Handle, x1: Handle, x2: Handle, x3: Handle)
    requires forall h :: h in a ==> h < next
    requires next <= x0 < x1 < x2 < x3
    requires grown == a + {x0, x1, x2, x3}
    ensures |grown| == |a| + 4
  {
    var a1 := a + {x0};
    var a2 := a1 + {x1};
    var a3 := a2 + {x2};
    assert x0 !in a && x1 !in a1 && x2 !in a2 && x3 !in a3;
    assert grown == a3 + {x3};
  }

  /** The space after registering the eight handles from `next` as four
      bodies (even offsets) and four shapes (odd offsets). */
  ghost predicate FourRegistered(s: Space, s1: Space) {
    var n := s.next;
    && s1.bodies == s.bodies + {n, n + 2, n + 4, n + 6}
    && s1.shapes == s.shapes + {n + 1, n + 3, n + 5, n + 7}
    && s1.constraints == s.constraints && s1.next == n + 8
  }

  /** Registering four fresh bodies and four fresh shapes grows each set by
      four. */
  lemma FourFreshCounts(s: Space, s1: Space)
    requires forall h :: h in s.bodies ==> h < s.next
    requires forall h :: h in s.shapes ==> h < s.next
    requires FourRegistered(s, s1)
    ensures |s1.bodies| == |s.bodies| + 4 && |s1.shapes| == |s.shapes| + 4
  {
    var n := s.next;
    AddFourFresh(s.bodies, s1.bodies, n, n, n + 2, n + 4, n + 6);
    AddFourFresh(s.shapes, s1.shapes, n, n + 1, n + 3, n + 5, n + 7);
  }

  /** Registering handles below the new `next` keeps the space well formed. */
  lemma FourFreshValid(s: Space, s1: Space)
    requires Valid(s) && FourRegistered(s, s1)
    ensures Valid(s1)
  {
    BelowNext(s);
  }

  /** The bodies Stickman.create registers are exactly its parts' bodies. */
  lemma CreatedBodiesAreParts(config: StickmanConfigType, s: Space, startPos: Vec2, group: int, phys: Physics)
    ensures var st := Create(config, s, startPos, group, phys).0;
      Create(config, s, startPos, group, phys).1.bodies == s.bodies + Elems(PartIds(BodyParts(st)))
  {
    var n := s.next;
    CreatedSpace(config, s, startPos, group, phys);
    CreatedIds(config, s, startPos, group, phys);
    ElemsOfEight(n + 14, n + 12, n + 8, n + 10, n + 6, n + 4, n + 2, n);
  }

  /** The shapes create registers are exactly the shapes of the stickman's
      parts. */
  lemma CreatedShapesAreParts(config: StickmanConfigType, s: Space, startPos: Vec2, group: int, phys: Physics)
    ensures var st := Create(config, s, startPos, group, phys).0;
      Create(config, s, startPos, group, phys).1.shapes == s.shapes + Elems(ShapeIds(BodyParts(st)))
  {
    var n := s.next;
    CreatedSpace(config, s, startPos, group, phys);
    CreatedShapeIds(config, s, startPos, group, phys);
    ElemsOfEight(n + 15, n + 13, n + 9, n + 11, n + 7, n + 5, n + 3, n + 1);
  }

  /** Stickman.create registers eight fresh bodies, one per part, and eight
      fresh shapes, adds no constraint, and keeps the space well formed. */
  lemma CreateRegistersEightParts(config: StickmanConfigType, s: Space, startPos: Vec2, group: int, phys: Physics)
    requires Valid(s)
    ensures var st := Create(config, s, startPos, group, phys).0;
      var s1 := Create(config, s, startPos, group, phys).1;
      && Valid(s1)
      && s1.bodies == s.bodies + Elems(PartIds(BodyParts(st)))
      && s1.shapes == s.shapes + Elems(ShapeIds(BodyParts(st)))
      && |s1.bodies| == |s.bodies| + 8
      && |s1.shapes| == |s.shapes| + 8
      && s1.constraints == s.constraints
      && s1.forces == s.forces
  {
    var lower := BuildLower(config, s, startPos, group, phys);
    CreateComposes(config, s, startPos, group, phys);
    LowerRegistersFour(config, s, startPos, group, phys);
    UpperRegistersFour(config, lower.4, lower.3, group, phys);
    CreatedBodiesAreParts(config, s, startPos, group, phys);
    CreatedShapesAreParts(config, s, startPos, group, phys);
    CreatedSpace(config, s, startPos, group, phys);
  }

  /** body_parts lists eight parts with pairwise distinct bodies, so every
      part of a created stickman appears in it exactly once. */
  lemma BodyPartsDistinct(config: StickmanConfigType, s: Space, startPos: Vec2, group: int, phys: Physics)
    ensures var ids := PartIds(BodyParts(Create(config, s, startPos, group, phys).0));
      |ids| == 8 && Distinct(ids)
  {
    CreatedIds(config, s, startPos, group, phys);
    HandedOutDistinct(s.next);
  }

  /** The swap reorders the bodies of body_parts but keeps them distinct. */
  lemma AsWrittenBodyPartsDistinct(config: StickmanConfigType, s: Space, startPos: Vec2, group: int, phys: Physics)
    ensures var ids := PartIds(BodyParts(CreateAsWritten(config, s, startPos, group, phys).0));
      |ids| == 8 && Distinct(ids)
  {
    AsWrittenIds(config, s, startPos, group, phys);
    HandedOutDistinct(s.next);
  }

  /** Stickman.update on a stickman whose parts have pairwise distinct
      bodies applies exactly one of its eight new forces to each part's body,
      at that part's position. */
  lemma ForwardsOncePerPart(st: Stickman, s0: Space, phys: Physics)
    requires Distinct(PartIds(BodyParts(st)))
    ensures var added := Update(st, s0, phys).forces[|s0.forces|..];
      var ids := PartIds(BodyParts(st));
      && |added| == |ids| == 8
      && (forall i, j :: 0 <= i < 8 && 0 <= j < 8 ==> (added[j].body == ids[i] <==> i == j))
      && (forall i :: 0 <= i < 8 ==> added[i].point == BodyParts(st)[i].body.position)
  {
    var r := Update(st, s0, phys);
    var added := r.forces[|s0.forces|..];
    var ids := PartIds(BodyParts(st));
    assert forall i :: 0 <= i < 8 ==> added[i] == r.forces[|s0.forces| + i];
    assert forall i :: 0 <= i < 8 ==> added[i].body == ids[i];
  }

  /** Stickman.update on a stickman whose parts are all at rest applies
      eight zero forces, when the zero vector has length 0. */
  lemma RestingUpdateIsDragFree(st: Stickman, s0: Space, phys: Physics)
    requires phys.length(Zero) == 0.0
    requires forall p :: p in BodyParts(st) ==> p.body.velocity == Zero
    ensures var added := Update(st, s0, phys).forces[|s0.forces|..];
      |added| == 8 && forall i :: 0 <= i < 8 ==> added[i].force == Zero
  {
    var r := Update(st, s0, phys);
    var added := r.forces[|s0.forces|..];
    forall i | 0 <= i < 8 ensures added[i].force == Zero {
      var p := BodyParts(st)[i];
      assert p in BodyParts(st);
      assert added[i] == r.forces[|s0.forces| + i] == PartForce(p, phys);
    }
  }

  /** Stickman.update on a created stickman applies one force on each part's
      body, at that part's position, and no two of the eight new forces act
      on the same body. */
  lemma UpdateForwardsOncePerPart(config: StickmanConfigType, s: Space, startPos: Vec2, group: int, phys: Physics, s0: Space)
    ensures var st := Create(config, s, startPos, group, phys).0;
      var added := Update(st, s0, phys).forces[|s0.forces|..];
      var ids := PartIds(BodyParts(st));
      && |added| == |ids| == 8
      && (forall i, j :: 0 <= i < 8 && 0 <= j < 8 ==> (added[j].body == ids[i] <==> i == j))
      && (forall i :: 0 <= i < 8 ==> added[i].point == BodyParts(st)[i].body.position)
  {
    BodyPartsDistinct(config, s, startPos, group, phys);
    ForwardsOncePerPart(Create(config, s, startPos, group, phys).0, s0, phys);
  }

  /** The same for the stickman as written: the swap changes which slot
      each leg's force takes, not that every part gets exactly one. */
  lemma AsWrittenUpdateForwardsOncePerPart(config: StickmanConfigType, s: Space, startPos: Vec2, group: int, phys: Physics, s0: Space)
    ensures var st := CreateAsWritten(config, s, startPos, group, phys).0;
      var added := Update(st, s0, phys).forces[|s0.forces|..];
      var ids := PartIds(BodyParts(st));
      && |added| == |ids| == 8
      && (forall i, j :: 0 <= i < 8 && 0 <= j < 8 ==> (added[j].body == ids[i] <==> i == j))
      && (forall i :: 0 <= i < 8 ==> added[i].point == BodyParts(st)[i].body.position)
  {
    AsWrittenBodyPartsDistinct(config, s, startPos, group, phys);
    ForwardsOncePerPart(CreateAsWritten(config, s, startPos, group, phys).0, s0, phys);
  }

  /** Right after create every part is at rest, so when the zero vector has
      length 0 the first update applies eight zero forces. */
  lemma UpdateAfterCreateIsDragFree(config: StickmanConfigType, s: Space, startPos: Vec2, group: int, phys: Physics, s0: Space)
    requires phys.length(Zero) == 0.0
    ensures var st := Create(config, s, startPos, group, phys).0;
      var added := Update(st, s0, phys).forces[|s0.forces|..];
      |added| == 8 && forall i :: 0 <= i < 8 ==> added[i].force == Zero
  {
    CreateSharesGroup(config, s, startPos, group, phys);
    RestingUpdateIsDragFree(Create(config, s, startPos, group, phys).0, s0, phys);
  }

  /** The same for the stickman as written. */
  lemma AsWrittenUpdateIsDragFree(config: StickmanConfigType, s: Space, startPos: Vec2, group: int, phys: Physics, s0: Space)
    requires phys.length(Zero) == 0.0
    ensures var st := CreateAsWritten(config, s, startPos, group, phys).0;
      var added := Update(st, s0, phys).forces[|s0.forces|..];
      |added| == 8 && forall i :: 0 <= i < 8 ==> added[i].force == Zero
  {
    AsWrittenSharesGroup(config, s, startPos, group, phys);
    RestingUpdateIsDragFree(CreateAsWritten(config, s, startPos, group, phys).0, s0, phys);
  }

  /** The stickman as written registers the same space, whose bodies are
      again exactly its parts' bodies. */
  lemma AsWrittenRegistersEightParts(config: StickmanConfigType, s: Space, startPos: Vec2, group: int, phys: Physics)
    requires Valid(s)
    ensures var st := CreateAsWritten(config, s, startPos, group, phys).0;
      var s1 := CreateAsWritten(config, s, startPos, group, phys).1;
      && Valid(s1)
      && s1.bodies == s.bodies + Elems(PartIds(BodyParts(st)))
      && s1.shapes == s.shapes + Elems(ShapeIds(BodyParts(st)))
      && |s1.bodies| == |s.bodies| + 8
      && |s1.shapes| == |s.shapes| + 8
      && s1.constraints == s.constraints
      && s1.forces == s.forces
  {
    AsWrittenSameRegistrations(config, s, startPos, group, phys);
    CreateRegistersEightParts(config, s, startPos, group, phys);
  }

  /** The stickman as written and the corrected one leave the same space
      and own the same set of bodies. */
  lemma AsWrittenSameRegistrations(config: StickmanConfigType, s: Space, startPos: Vec2, group: int, phys: Physics)
    ensures CreateAsWritten(config, s, startPos, group, phys).1 == Create(config, s, startPos, group, phys).1
    ensures Elems(PartIds(BodyParts(CreateAsWritten(config, s, startPos, group, phys).0)))
         == Elems(PartIds(BodyParts(Create(config, s, startPos, group, phys).0)))
    ensures Elems(ShapeIds(BodyParts(CreateAsWritten(config, s, startPos, group, phys).0)))
         == Elems(ShapeIds(BodyParts(Create(config, s, startPos, group, phys).0)))
  {
    AsWrittenSwapsLegs(config, s, startPos, group, phys);
    CreatedIds(config, s, startPos, group, phys);
    AsWrittenIds(config, s, startPos, group, phys);
    SwappedElems(s.next);
    CreatedShapeIds(config, s, startPos, group, phys);
    AsWrittenShapeIds(config, s, startPos, group, phys);
    SwappedElems(s.next + 1);
  }

  lemma SwappedElems(n: Handle)
    ensures Elems([n + 14, n + 12, n + 8, n + 10, n + 6, n + 2, n + 4, n])
         == Elems([n + 14, n + 12, n + 8, n + 10, n + 6, n + 4, n + 2, n])
  {
    ElemsOfEight(n + 14, n + 12, n + 8, n + 10, n + 6, n + 4, n + 2, n);
    ElemsOfEight(n + 14, n + 12, n + 8, n + 10, n + 6, n + 2, n + 4, n);
  }

  /** As written, Stickman.create stores the limb placed straight above the
      foot (built from the lower-leg config) in the `upper_leg` field and the
      one beside it in `lower_leg`, for every input; body_parts and so
      update then visit them in swapped order. */
  lemma AsWrittenSwapsLegs(config: StickmanConfigType, s: Space, startPos: Vec2, group: int, phys: Physics)
    ensures var (w, ws) := CreateAsWritten(config, s, startPos, group, phys);
      var (c, cs) := Create(config, s, startPos, group, phys);
      && ws == cs
      && w == c.(lowerLeg := c.upperLeg, upperLeg := c.lowerLeg)
      && w.upperLeg == c.lowerLeg && w.lowerLeg == c.upperLeg
      && w.upperLeg != c.upperLeg
      && StartLimbPosition(w.upperLeg) == Add(startPos, Vec2(0.0, -config.lowerLeg.length))
      && BodyParts(w)[5] == BodyParts(c)[6] && BodyParts(w)[6] == BodyParts(c)[5]
  {
    var lower := BuildLower(config, s, startPos, group, phys);
    var upper := BuildUpper(config, lower.4, lower.3, group, phys);
    CreateComposes(config, s, startPos, group, phys);
    assert lower.1.part.body.id != lower.2.part.body.id;
  }

  /** With a lower leg of 80 and an upper leg of 60 the swapped field even
      reports the wrong length. */
  lemma AsWrittenExample(config: StickmanConfigType, s: Space, group: int, phys: Physics)
    requires config.lowerLeg.length == 80.0 && config.upperLeg.length == 60.0
    ensures var w := CreateAsWritten(config, s, Vec2(100.0, 500.0), group, phys).0;
      && w.upperLeg.config.length == 80.0
      && StartLimbPosition(w.upperLeg) == Vec2(100.0, 420.0)
      && StartLimbPosition(w.lowerLeg) == Vec2(40.0, 420.0)
  {
    AsWrittenSwapsLegs(config, s, Vec2(100.0, 500.0), group, phys);
    CreatePlacesParts(config, s, Vec2(100.0, 500.0), group, phys);
  }
}

=== FILE: swing.dfy ===
/** The swing of src/objects/swing.py: a chain of disc-shaped links hung
    from a static top link, each later link pin-jointed to the one before. */
module Swings {
  import opened Geometry
  import opened Options
  import opened World
  import opened ConfigTypes

  datatype ChainLinkConfig = ChainLinkConfig(mass: real, radius: real, group: int)

  /** One link: its body and circle shape, where it was created, and the pin
      joints it owns. */
  datatype ChainLink = ChainLink(config: ChainLinkConfig, startPos: Vec2, part: RigidPart, constraints: seq<Joint>)

  datatype Swing = Swing(startPos: Vec2, startAngle: real, links: seq<ChainLink>, linkLength: real)

  /** ChainLink.position: where the link's body is. */
  function Position(link: ChainLink): Vec2 {
    link.part.body.position
  }

  /** A link's shape agrees with its config: a centred circle of the
      config's radius and group attached to the link's body. */
  ghost predicate Consistent(link: ChainLink) {
    && link.part.shape.body == link.part.body.id
    && link.part.shape.outline == Circle(link.config.radius, Zero)
    && link.part.shape.group == link.config.group
  }

  /** `link` is what dynamic_link builds from `prev`: a dynamic link one
      link length further along the swing's direction, with the same config,
      owning one pin joint from `prev`'s body to its own. */
  ghost predicate Follows(prev: ChainLink, link: ChainLink, length: real, angle: real, phys: Physics) {
    && Position(link) == Add(Position(prev), Scale(length, phys.dirVec(angle)))
    && link.startPos == Position(link)
    && link.config == prev.config
    && Consistent(link)
    && link.part.body.kind == Dynamic
    && link.part.body.mass == Finite(link.config.mass)
    && link.part.body.velocity == Zero
    && |link.constraints| == 1
    && link.constraints[0].a == prev.part.body.id
    && link.constraints[0].b == link.part.body.id
    && link.constraints[0].anchorA == Zero
  }

  /** ChainLink.generate: a fresh dynamic link at rest at `startPos`,
      registered with the space, owning no joints yet. */
  function Generate(s: Space, startPos: Vec2, mass: real, radius: real, group: int): (r: (ChainLink, Space))
    ensures r.0.config == ChainLinkConfig(mass, radius, group) && Consistent(r.0)
    ensures r.0.startPos == startPos && Position(r.0) == startPos && r.0.part.body.velocity == Zero
    ensures r.0.part.body.kind == Dynamic && r.0.part.body.mass == Finite(mass) && r.0.constraints == []
    ensures r.0.part.body.id == s.next && r.0.part.shape.id == s.next + 1
    ensures r.1 == s.(bodies := s.bodies + {s.next}, shapes := s.shapes + {s.next + 1}, next := s.next + 2)
  {
    var config := ChainLinkConfig(mass, radius, group);
    var (part, s1) := NewPart(s, startPos, config.mass, Circle(config.radius, Zero), config.group);
    (ChainLink(config, startPos, part, []), s1)
  }

  /** ChainLink.static_link: a generated link whose body is made static,
      which in pymunk also makes its mass infinite; the config keeps the
      mass it was given. */
  function StaticLink(s: Space, startPos: Vec2, mass: real, radius: real, group: int): (r: (ChainLink, Space))
    ensures r.0.part.body.kind == Static && r.0.part.body.mass == Infinite && r.0.part.body.velocity == Zero
    ensures r.0.config == ChainLinkConfig(mass, radius, group) && Consistent(r.0)
    ensures r.0.startPos == startPos && Position(r.0) == startPos && r.0.constraints == []
    ensures r.0.part.body.id == s.next && r.0.part.shape.id == s.next + 1
    ensures r.1 == s.(bodies := s.bodies + {s.next}, shapes := s.shapes + {s.next + 1}, next := s.next + 2)
  {
    var (link, s1) := Generate(s, startPos, mass, radius, group);
    (link.(part := link.part.(body := link.part.body.(kind := Static, mass := Infinite))), s1)
  }

  /** ChainLink.add_pinjoint: a fresh pin joint between `a` and `b`,
      registered with the space and appended to the link's own list. In a
      well-formed space the joint's handle was not registered before, so the
      space gains exactly one constraint and stays well formed. */
  function AddPinJoint(link: ChainLink, s: Space, a: Handle, b: Handle, offset: Vec2): (r: (ChainLink, Space))
    ensures r.0 == link.(constraints := link.constraints + [PinJoint(s.next, a, b, offset)])
    ensures r.1 == s.(constraints := s.constraints + {s.next}, next := s.next + 1)
    ensures JointIds(r.0.constraints) == JointIds(link.constraints) + {s.next}
    ensures Valid(s) ==> s.next !in Handles(s)
    ensures Valid(s) ==> |r.1.constraints| == |s.constraints| + 1 && Valid(r.1)
  {
    var joint := PinJoint(s.next, a, b, offset);
    (link.(constraints := link.constraints + [joint]),
     s.(constraints := s.constraints + {joint.id}, next := s.next + 1))
  }

  /** ChainLink.dynamic_link: the next link of a chain. */
  function DynamicLink(other: ChainLink, s: Space, length: real, angle: real, phys: Physics): (r: (ChainLink, Space))
    ensures Follows(other, r.0, length, angle, phys)
    ensures r.0.part.body.id == s.next && r.0.part.shape.id == s.next + 1
    ensures r.0.constraints[0].id == s.next + 2
    ensures r.1 == s.(bodies := s.bodies + {s.next}, shapes := s.shapes + {s.next + 1},
                      constraints := s.constraints + {s.next + 2}, next := s.next + 3)
  {
    var pos := Add(Position(other), Scale(length, phys.dirVec(angle)));
    var (link, s1) := Generate(s, pos, other.config.mass, other.config.radius, other.config.group);
    AddPinJoint(link, s1, other.part.body.id, link.part.body.id, Zero)
  }

  /** The handles of a sequence of joints. */
  function JointIds(js: seq<Joint>): set<Handle> {
    set j | j in js :: j.id
  }

  /** ChainLink.remove_from_space: unregister the link's body, shape and
      every joint it owns. */
  function RemoveFromSpace(link: ChainLink, s: Space): (r: Space)
    ensures r.bodies == s.bodies - {link.part.body.id}
    ensures r.shapes == s.shapes - {link.part.shape.id}
    ensures r.constraints == s.constraints - JointIds(link.constraints)
    ensures r.forces == s.forces && r.next == s.next
  {
    s.(bodies := s.bodies - {link.part.body.id},
       shapes := s.shapes - {link.part.shape.id},
       constraints := s.constraints - JointIds(link.constraints))
  }

  /** ChainLink.update: one force on the link's body at the link's
      position. For a link whose shape matches its config it is the drag of
      a circle of the config's radius, and it is zero while the link is at
      rest. */
  function UpdateLink(link: ChainLink, s: Space, phys: Physics): (r: Space)
    ensures r == s.(forces := s.forces + [PartForce(link.part, phys)])
    ensures |r.forces| == |s.forces| + 1 && r.forces[..|s.forces|] == s.forces
    ensures r.forces[|s.forces|].body == link.part.body.id && r.forces[|s.forces|].point == Position(link)
    ensures Consistent(link) ==>
              var v := link.part.body.velocity;
              r.forces[|s.forces|].force == DragForce(phys.area(Circle(link.config.radius, Zero)), v, phys.length(v))
    ensures link.part.body.velocity == Zero && phys.length(Zero) == 0.0 ==> r.forces[|s.forces|].force == Zero
  {
    UpdatePart(link.part, s, phys)
  }

  // ---------------------------------------------------------------------
  // The handles a chain owns

  function Parts(links: seq<ChainLink>): seq<RigidPart> {
    seq(|links|, i requires 0 <= i < |links| => links[i].part)
  }

  function BodyHandles(links: seq<ChainLink>): seq<Handle> {
    seq(|links|, i requires 0 <= i < |links| => links[i].part.body.id)
  }

  function ShapeHandles(links: seq<ChainLink>): seq<Handle> {
    seq(|links|, i requires 0 <= i < |links| => links[i].part.shape.id)
  }

  function IdsOf(js: seq<Joint>): seq<Handle> {
    seq(|js|, i requires 0 <= i < |js| => js[i].id)
  }

  /** The handles of every joint of the chain, link by link. */
  function JointHandles(links: seq<ChainLink>): seq<Handle> {
    if links == [] then [] else IdsOf(links[0].constraints) + JointHandles(links[1..])
  }

  lemma JointIdsAreElems(js: seq<Joint>)
    ensures JointIds(js) == Elems(IdsOf(js))
  {
    forall h | h in Elems(IdsOf(js)) ensures h in JointIds(js) {
      var i :| 0 <= i < |js| && IdsOf(js)[i] == h;
      assert js[i] in js;
    }
    forall h | h in JointIds(js) ensures h in Elems(IdsOf(js)) {
      var j :| j in js && j.id == h;
      var i :| 0 <= i < |js| && js[i] == j;
      assert IdsOf(js)[i] == h;
    }
  }

  lemma HandlesCons(links: seq<ChainLink>)
    requires links != []
    ensures Elems(BodyHandles(links)) == {links[0].part.body.id} + Elems(BodyHandles(links[1..]))
    ensures Elems(ShapeHandles(links)) == {links[0].part.shape.id} + Elems(ShapeHandles(links[1..]))
    ensures Elems(JointHandles(links)) == JointIds(links[0].constraints) + Elems(JointHandles(links[1..]))
  {
    assert BodyHandles(links) == [links[0].part.body.id] + BodyHandles(links[1..]);
    assert ShapeHandles(links) == [links[0].part.shape.id] + ShapeHandles(links[1..]);
    ElemsAppend([links[0].part.body.id], BodyHandles(links[1..]));
    ElemsAppend([links[0].part.shape.id], ShapeHandles(links[1..]));
    ElemsAppend(IdsOf(links[0].constraints), JointHandles(links[1..]));
    JointIdsAreElems(links[0].constraints);
  }

  lemma {:induction false} JointHandlesSnoc(links: seq<ChainLink>, link: ChainLink)
    ensures JointHandles(links + [link]) == JointHandles(links) + IdsOf(link.constraints)
    decreases |links|
  {
    if links == [] {
      assert [link][1..] == [];
    } else {
      assert (links + [link])[1..] == links[1..] + [link];
      JointHandlesSnoc(links[1..], link);
    }
  }

  lemma HandlesSnoc(links: seq<ChainLink>, link: ChainLink)
    ensures Elems(BodyHandles(links + [link])) == Elems(BodyHandles(links)) + {link.part.body.id}
    ensures Elems(ShapeHandles(links + [link])) == Elems(ShapeHandles(links)) + {link.part.shape.id}
    ensures Elems(JointHandles(links + [link])) == Elems(JointHandles(links)) + JointIds(link.constraints)
  {
    assert BodyHandles(links + [link]) == BodyHandles(links) + [link.part.body.id];
    assert ShapeHandles(links + [link]) == ShapeHandles(links) + [link.part.shape.id];
    ElemsAppend(BodyHandles(links), [link.part.body.id]);
    ElemsAppend(ShapeHandles(links), [link.part.shape.id]);
    JointHandlesSnoc(links, link);
    ElemsAppend(JointHandles(links), IdsOf(link.constraints));
    JointIdsAreElems(link.constraints);
  }

  // ---------------------------------------------------------------------
  // Swing

  /** Swing.num_links: the number of links, whose last index names the seat. */
  function NumLinks(sw: Swing): (n: nat)
    ensures n == |sw.links|
    ensures n > 0 <==> GetLinkByIndex(sw, -1).Some?
    ensures n > 0 ==> GetLinkByIndex(sw, n - 1) == GetLinkByIndex(sw, -1)
  {
    |sw.links|
  }

  /** Swing.get_link_by_index: Python list indexing, where a negative index
      counts from the end and an index out of range raises IndexError. */
  function GetLinkByIndex(sw: Swing, index: int): (r: Option<ChainLink>)
    ensures r.Some? <==> -|sw.links| <= index < |sw.links|
    ensures 0 <= index < |sw.links| ==> r == Some(sw.links[index])
    ensures -|sw.links| <= index < 0 ==> r == Some(sw.links[|sw.links| + index])
    ensures r.Some? ==> r.value in sw.links
  {
    if 0 <= index < |sw.links| then Some(sw.links[index])
    else if -|sw.links| <= index < 0 then Some(sw.links[|sw.links| + index])
    else None
  }

  /** A negative index names the same link as that index plus the length. */
  lemma NegativeIndexCountsFromEnd(sw: Swing, index: int)
    requires -|sw.links| <= index < 0
    ensures GetLinkByIndex(sw, index) == GetLinkByIndex(sw, index + |sw.links|)
    ensures GetLinkByIndex(sw, index) == Some(sw.links[|sw.links| + index])
  {
  }

  /** Swing.top_link. */
  function TopLink(sw: Swing): (r: Option<ChainLink>)
    ensures r.Some? <==> sw.links != []
    ensures r.Some? ==> r.value == sw.links[0]
  {
    GetLinkByIndex(sw, 0)
  }

  /** Swing.seat. */
  function Seat(sw: Swing): (r: Option<ChainLink>)
    ensures r.Some? <==> sw.links != []
    ensures r.Some? ==> r.value == sw.links[|sw.links| - 1]
  {
    GetLinkByIndex(sw, -1)
  }

  /** The number of iterations of `range(lo, hi)`. */
  function RangeLength(lo: int, hi: int): nat {
    if hi > lo then hi - lo else 0
  }

  /** The handles Swing.create hands out from `base` on: link 0 takes a body
      and a shape, every later link a body, a shape and one joint. */
  ghost predicate LaidOut(links: seq<ChainLink>, base: Handle) {
    && |links| > 0
    && links[0].part.body.id == base
    && links[0].part.shape.id == base + 1
    && links[0].constraints == []
    && forall i :: 1 <= i < |links| ==>
         && links[i].part.body.id == base + 3 * i - 1
         && links[i].part.shape.id == base + 3 * i
         && |links[i].constraints| == 1
         && links[i].constraints[0].id == base + 3 * i + 1
  }

  ghost predicate Chained(links: seq<ChainLink>, length: real, angle: real, phys: Physics) {
    forall i :: 1 <= i < |links| ==> Follows(links[i - 1], links[i], length, angle, phys)
  }

  /** The top link followed by `n` dynamic links: the links of Swing.create
      after `n` iterations of its loop, each new link following `_links[-1]`. */
  function Chain(config: SwingConfigType, s: Space, startPos: Vec2, group: int, n: nat, phys: Physics): (r: (seq<ChainLink>, Space))
    ensures |r.0| == n + 1
    ensures r.0[0].part.body.kind == Static
    ensures r.0[0].config == ChainLinkConfig(config.linkMass, config.linkRadius, group)
    ensures Consistent(r.0[0]) && Position(r.0[0]) == startPos && r.0[0].startPos == startPos
    ensures r.0[0].part.body.velocity == Zero && r.0[0].part.body.mass == Infinite
    ensures Chained(r.0, config.linkLength, config.startAngle, phys)
    ensures LaidOut(r.0, s.next) && r.1.next == s.next + 3 * n + 2
    ensures r.1.bodies == s.bodies + Elems(BodyHandles(r.0))
    ensures r.1.shapes == s.shapes + Elems(ShapeHandles(r.0))
    ensures r.1.constraints == s.constraints + Elems(JointHandles(r.0))
    ensures r.1.forces == s.forces
    decreases n
  {
    if n == 0 then
      var (top, s1) := StaticLink(s, startPos, config.linkMass, config.linkRadius, group);
      assert [] + [top] == [top];
      HandlesSnoc([], top);
      assert JointIds(top.constraints) == {};
      ([top], s1)
    else
      var (links, s1) := Chain(config, s, startPos, group, n - 1, phys);
      var (link, s2) := DynamicLink(links[|links| - 1], s1, config.linkLength, config.startAngle, phys);
      HandlesSnoc(links, link);
      assert JointIds(link.constraints) == {link.constraints[0].id};
      ChainStep(links, link, s.next, config.linkLength, config.startAngle, phys);
      assert (links + [link])[0] == links[0];
      (links + [link], s2)
  }

  lemma ChainStep(links: seq<ChainLink>, link: ChainLink, base: Handle, length: real, angle: real, phys: Physics)
    requires Chained(links, length, angle, phys) && LaidOut(links, base)
    requires Follows(links[|links| - 1], link, length, angle, phys)
    requires link.part.body.id == base + 3 * |links| - 1
    requires link.part.shape.id == base + 3 * |links|
    requires link.constraints[0].id == base + 3 * |links| + 1
    ensures Chained(links + [link], length, angle, phys)
    ensures LaidOut(links + [link], base)
  {
    var ls := links + [link];
    forall i | 1 <= i < |ls|
      ensures Follows(ls[i - 1], ls[i], length, angle, phys)
    {
      if i < |links| {
        assert ls[i - 1] == links[i - 1] && ls[i] == links[i];
      }
    }
  }

  /** Swing.create: a static top link at `startPos`, then one dynamic link
      per iteration of `range(1, num_links)`. */
  function Create(config: SwingConfigType, s: Space, startPos: Vec2, group: int, phys: Physics): (r: (Swing, Space))
    ensures r.0.startPos == startPos && r.0.startAngle == config.startAngle
    ensures r.0.linkLength == config.linkLength
    ensures |r.0.links| == if config.numLinks < 1 then 1 else config.numLinks
    ensures r.0.links[0].part.body.kind == Static
    ensures r.0.links[0].config == ChainLinkConfig(config.linkMass, config.linkRadius, group)
    ensures Consistent(r.0.links[0]) && Position(r.0.links[0]) == startPos
    ensures r.0.links[0].part.body.velocity == Zero && r.0.links[0].part.body.mass == Infinite
    ensures Chained(r.0.links, config.linkLength, config.startAngle, phys)
    ensures LaidOut(r.0.links, s.next) && r.1.next == s.next + 3 * |r.0.links| - 1
    ensures r.1.bodies == s.bodies + Elems(BodyHandles(r.0.links))
    ensures r.1.shapes == s.shapes + Elems(ShapeHandles(r.0.links))
    ensures r.1.constraints == s.constraints + Elems(JointHandles(r.0.links))
    ensures r.1.forces == s.forces
  {
    var (links, s1) := Chain(config, s, startPos, group, RangeLength(1, config.numLinks), phys);
    (Swing(startPos, config.startAngle, links, config.linkLength), s1)
  }

  /** Swing.update: every link's update, in order. */
  function Update(sw: Swing, s: Space, phys: Physics): (r: Space)
    ensures r == s.(forces := r.forces)
    ensures |r.forces| == |s.forces| + |sw.links|
    ensures r.forces[..|s.forces|] == s.forces
    ensures forall i :: 0 <= i < |sw.links| ==> r.forces[|s.forces| + i] == PartForce(sw.links[i].part, phys)
  {
    var ps := Parts(sw.links);
    var r := UpdateAll(ps, s, phys);
    assert |ps| == |sw.links| && forall i :: 0 <= i < |sw.links| ==> ps[i] == sw.links[i].part;
    assert forall i :: 0 <= i < |sw.links| ==> r.forces[|s.forces| + i] == PartForce(ps[i], phys);
    r
  }

  /** `for link in links: link.remove_from_space()`. */
  function RemoveLinks(links: seq<ChainLink>, s: Space): (r: Space)
    ensures r.bodies == s.bodies - Elems(BodyHandles(links))
    ensures r.shapes == s.shapes - Elems(ShapeHandles(links))
    ensures r.constraints == s.constraints - Elems(JointHandles(links))
    ensures r.forces == s.forces && r.next == s.next
    decreases |links|
  {
    if links == [] then
      assert BodyHandles(links) == [] && ShapeHandles(links) == [];
      s
    else
      HandlesCons(links);
      RemoveLinks(links[1..], RemoveFromSpace(links[0], s))
  }

  /** Swing.remove. */
  function Remove(sw: Swing, s: Space): (r: Space)
    ensures r.bodies == s.bodies - Elems(BodyHandles(sw.links))
    ensures r.shapes == s.shapes - Elems(ShapeHandles(sw.links))
    ensures r.constraints == s.constraints - Elems(JointHandles(sw.links))
    ensures r.forces == s.forces && r.next == s.next
  {
    RemoveLinks(sw.links, s)
  }
}

=== FILE: swing_properties.dfy ===
/** What Swing.create, update and remove promise about the whole chain. */
module SwingProperties {
  import opened Geometry
  import opened Options
  import opened World
  import opened ConfigTypes
  import opened Swings

  /** Along a chain every link sits `i` link lengths from the first one in
      the chain's direction, and carries the first link's config. */
  lemma {:induction false} ChainedPlacement(links: seq<ChainLink>, length: real, angle: real, phys: Physics)
    requires links != [] && Chained(links, length, angle, phys)
    ensures forall i :: 0 <= i < |links| ==>
              Position(links[i]) == Add(Position(links[0]), Scale(i as real * length, phys.dirVec(angle)))
    ensures forall i :: 0 <= i < |links| ==> links[i].config == links[0].config
    decreases |links|
  {
    if |links| > 1 {
      var init := links[..|links| - 1];
      assert Chained(init, length, angle, phys) by {
        forall i | 1 <= i < |init| ensures Follows(init[i - 1], init[i], length, angle, phys) {
          assert init[i - 1] == links[i - 1] && init[i] == links[i];
        }
      }
      ChainedPlacement(init, length, angle, phys);
      var n := |links| - 1;
      var d := phys.dirVec(angle);
      assert init[n - 1] == links[n - 1];
      assert Follows(links[n - 1], links[n], length, angle, phys);
      assert Position(links[n - 1]) == Add(Position(links[0]), Scale((n - 1) as real * length, d));
      assert (n - 1) as real * length + length == n as real * length;
      forall i | 0 <= i < n
        ensures Position(links[i]) == Add(Position(links[0]), Scale(i as real * length, d))
        ensures links[i].config == links[0].config
      {
        assert links[i] == init[i];
      }
    }
  }

  /** Swing.create builds max(1, num_links) links; link 0 is the static top
      link at `startPos`, of infinite mass, every later link is dynamic with
      the configured mass and sits at
      startPos + i * dir_vec(start_angle) * link_length, and all links share
      one config: mass, radius and collision group. */
  lemma CreatePlacesLinks(config: SwingConfigType, s: Space, startPos: Vec2, group: int, phys: Physics)
    ensures var links := Create(config, s, startPos, group, phys).0.links;
      && |links| == (if config.numLinks < 1 then 1 else config.numLinks)
      && links[0].part.body.kind == Static && links[0].part.body.mass == Infinite
      && (forall i :: 1 <= i < |links| ==>
            links[i].part.body.kind == Dynamic && links[i].part.body.mass == Finite(config.linkMass))
      && (forall i :: 0 <= i < |links| ==>
            Position(links[i]) == Add(startPos, Scale(i as real * config.linkLength, phys.dirVec(config.startAngle))))
      && (forall i :: 0 <= i < |links| ==>
            && links[i].config == ChainLinkConfig(config.linkMass, config.linkRadius, group)
            && links[i].part.shape.group == group
            && links[i].part.shape.outline == Circle(config.linkRadius, Zero))
  {
    var links := Create(config, s, startPos, group, phys).0.links;
    ChainedPlacement(links, config.linkLength, config.startAngle, phys);
    forall i | 1 <= i < |links|
      ensures links[i].part.body.kind == Dynamic && Consistent(links[i])
      ensures links[i].part.body.mass == Finite(config.linkMass)
    {
      assert Follows(links[i - 1], links[i], config.linkLength, config.startAngle, phys);
    }
  }

  /** With the reference direction straight down (dir_vec(0) = (0, -1)) and
      a start angle of 0, link i hangs i link lengths straight below the top. */
  lemma HangsStraightDown(config: SwingConfigType, s: Space, startPos: Vec2, group: int, phys: Physics)
    requires config.startAngle == 0.0 && phys.dirVec(0.0) == NORM_VECTOR
    ensures var links := Create(config, s, startPos, group, phys).0.links;
      forall i :: 0 <= i < |links| ==>
        Position(links[i]) == Vec2(startPos.x, startPos.y - i as real * config.linkLength)
  {
    var links := Create(config, s, startPos, group, phys).0.links;
    CreatePlacesLinks(config, s, startPos, group, phys);
    forall i | 0 <= i < |links|
      ensures Position(links[i]) == Vec2(startPos.x, startPos.y - i as real * config.linkLength)
    {
      var c := i as real * config.linkLength;
      assert Scale(c, NORM_VECTOR) == Vec2(0.0, -c);
    }
  }

  /** The joints of a chain whose links each own exactly one. */
  lemma {:induction false} JointHandlesOfSingles(links: seq<ChainLink>)
    requires forall i :: 0 <= i < |links| ==> |links[i].constraints| == 1
    ensures JointHandles(links) == seq(|links|, i requires 0 <= i < |links| => links[i].constraints[0].id)
    decreases |links|
  {
    if links != [] {
      JointHandlesOfSingles(links[1..]);
      assert IdsOf(links[0].constraints) == [links[0].constraints[0].id];
    }
  }

  /** The static link owns no joint and every dynamic link exactly one pin
      joint, from its predecessor's body to its own, so the swing has
      num_links - 1 joints, the i-th joining links i and i + 1. */
  lemma CreateJoinsNeighbours(config: SwingConfigType, s: Space, startPos: Vec2, group: int, phys: Physics)
    ensures var links := Create(config, s, startPos, group, phys).0.links;
      && links[0].constraints == []
      && (forall i :: 1 <= i < |links| ==>
            links[i].constraints == [PinJoint(links[i].constraints[0].id, links[i - 1].part.body.id, links[i].part.body.id, Zero)])
      && |JointHandles(links)| == |links| - 1
      && (forall i :: 0 <= i < |links| - 1 ==> JointHandles(links)[i] == links[i + 1].constraints[0].id)
  {
    var links := Create(config, s, startPos, group, phys).0.links;
    forall i | 1 <= i < |links|
      ensures links[i].constraints == [PinJoint(links[i].constraints[0].id, links[i - 1].part.body.id, links[i].part.body.id, Zero)]
    {
      assert Follows(links[i - 1], links[i], config.linkLength, config.startAngle, phys);
    }
    var rest := links[1..];
    assert forall i :: 0 <= i < |rest| ==> rest[i] == links[i + 1];
    JointHandlesOfSingles(rest);
    assert IdsOf(links[0].constraints) == [];
  }

  /** Handles at or above `next` are not registered in a well-formed space. */
  lemma FreshIsUnregistered(s: Space, hs: seq<Handle>)
    requires Valid(s)
    requires forall h :: h in hs ==> s.next <= h
    ensures Elems(hs) !! s.bodies && Elems(hs) !! s.shapes && Elems(hs) !! s.constraints
  {
    forall h | h in Elems(hs) ensures h !in Handles(s) {
    }
  }

  /** Adding fresh handles and taking them away again gives the same set. */
  lemma AddThenRemove(a: set<Handle>, b: set<Handle>)
    requires a !! b
    ensures (a + b) - b == a
  {
  }

  /** The joint handles of a laid-out chain, in order: one per link after
      the first. */
  lemma LaidOutJointHandles(links: seq<ChainLink>, base: Handle)
    requires LaidOut(links, base)
    ensures |JointHandles(links)| == |links| - 1
    ensures forall i :: 0 <= i < |links| - 1 ==> JointHandles(links)[i] == base + 3 * (i + 1) + 1
  {
    var rest := links[1..];
    assert forall i :: 0 <= i < |rest| ==> rest[i] == links[i + 1];
    JointHandlesOfSingles(rest);
    assert IdsOf(links[0].constraints) == [];
    assert JointHandles(links) == JointHandles(rest);
  }

  /** The handles of a laid-out chain are pairwise distinct within each
      kind and lie in [base, base + 3 * |links| - 1). */
  lemma LaidOutHandles(links: seq<ChainLink>, base: Handle)
    requires LaidOut(links, base)
    ensures |JointHandles(links)| == |links| - 1
    ensures StrictlyIncreasing(BodyHandles(links))
    ensures StrictlyIncreasing(ShapeHandles(links))
    ensures StrictlyIncreasing(JointHandles(links))
    ensures forall h :: h in BodyHandles(links) ==> base <= h < base + 3 * |links| - 1
    ensures forall h :: h in ShapeHandles(links) ==> base <= h < base + 3 * |links| - 1
    ensures forall h :: h in JointHandles(links) ==> base <= h < base + 3 * |links| - 1
  {
    LaidOutJointHandles(links, base);
    var bs := BodyHandles(links);
    var ss := ShapeHandles(links);
    assert forall i :: 0 <= i < |links| ==> bs[i] == (if i == 0 then base else base + 3 * i - 1);
    assert forall i :: 0 <= i < |links| ==> ss[i] == (if i == 0 then base + 1 else base + 3 * i);
  }

  /** A laid-out chain registered on top of a well-formed space adds as
      many bodies and shapes as it has links and one constraint fewer. */
  lemma FreshChainCounts(links: seq<ChainLink>, s: Space, s1: Space)
    requires Valid(s) && LaidOut(links, s.next) && s1.next == s.next + 3 * |links| - 1
    requires s1.bodies == s.bodies + Elems(BodyHandles(links))
    requires s1.shapes == s.shapes + Elems(ShapeHandles(links))
    requires s1.constraints == s.constraints + Elems(JointHandles(links))
    ensures Valid(s1)
    ensures |s1.bodies| == |s.bodies| + |links|
    ensures |s1.shapes| == |s.shapes| + |links|
    ensures |s1.constraints| == |s.constraints| + |links| - 1
  {
    LaidOutHandles(links, s.next);
    FreshSetsCount(s, s1, BodyHandles(links), ShapeHandles(links), JointHandles(links));
    FreshSetsValid(s, s1, BodyHandles(links), ShapeHandles(links), JointHandles(links));
  }

  /** Registering increasing handles at or above `next` grows each set by
      their number. */
  lemma FreshSetsCount(s: Space, s1: Space, bs: seq<Handle>, ss: seq<Handle>, js: seq<Handle>)
    requires Valid(s)
    requires StrictlyIncreasing(bs) && StrictlyIncreasing(ss) && StrictlyIncreasing(js)
    requires forall h :: h in bs ==> s.next <= h
    requires forall h :: h in ss ==> s.next <= h
    requires forall h :: h in js ==> s.next <= h
    requires s1.bodies == s.bodies + Elems(bs)
    requires s1.shapes == s.shapes + Elems(ss)
    requires s1.constraints == s.constraints + Elems(js)
    ensures |s1.bodies| == |s.bodies| + |bs|
    ensures |s1.shapes| == |s.shapes| + |ss|
    ensures |s1.constraints| == |s.constraints| + |js|
  {
    BelowNext(s);
    FreshAdds(s.bodies, bs, s.next);
    FreshAdds(s.shapes, ss, s.next);
    FreshAdds(s.constraints, js, s.next);
  }

  /** Registering handles below the new `next` keeps the space well formed. */
  lemma FreshSetsValid(s: Space, s1: Space, bs: seq<Handle>, ss: seq<Handle>, js: seq<Handle>)
    requires Valid(s) && s.next <= s1.next
    requires forall h :: h in bs ==> h < s1.next
    requires forall h :: h in ss ==> h < s1.next
    requires forall h :: h in js ==> h < s1.next
    requires s1.bodies == s.bodies + Elems(bs)
    requires s1.shapes == s.shapes + Elems(ss)
    requires s1.constraints == s.constraints + Elems(js)
    ensures Valid(s1)
  {
    forall h | h in Handles(s1) ensures h < s1.next {
      if h !in Handles(s) {
        assert h in bs || h in ss || h in js;
      }
    }
  }

  /** Swing.create registers exactly max(1, num_links) fresh bodies, as many
      fresh shapes and num_links - 1 fresh constraints, and leaves the space
      well formed. */
  lemma CreateRegistersFreshHandles(config: SwingConfigType, s: Space, startPos: Vec2, group: int, phys: Physics)
    requires Valid(s)
    ensures var r := Create(config, s, startPos, group, phys);
      && Valid(r.1)
      && |r.1.bodies| == |s.bodies| + |r.0.links|
      && |r.1.shapes| == |s.shapes| + |r.0.links|
      && |r.1.constraints| == |s.constraints| + |r.0.links| - 1
  {
    var r := Create(config, s, startPos, group, phys);
    FreshChainCounts(r.0.links, s, r.1);
  }

  /** Removing a laid-out chain from the space it was registered in gives
      back the space it was registered on. */
  lemma RemoveFreshChain(links: seq<ChainLink>, s: Space, s1: Space)
    requires Valid(s) && LaidOut(links, s.next)
    requires s1.bodies == s.bodies + Elems(BodyHandles(links))
    requires s1.shapes == s.shapes + Elems(ShapeHandles(links))
    requires s1.constraints == s.constraints + Elems(JointHandles(links))
    requires s1.forces == s.forces
    ensures RemoveLinks(links, s1) == s.(next := s1.next)
  {
    LaidOutHandles(links, s.next);
    FreshIsUnregistered(s, BodyHandles(links));
    FreshIsUnregistered(s, ShapeHandles(links));
    FreshIsUnregistered(s, JointHandles(links));
    AddThenRemove(s.bodies, Elems(BodyHandles(links)));
    AddThenRemove(s.shapes, Elems(ShapeHandles(links)));
    AddThenRemove(s.constraints, Elems(JointHandles(links)));
  }

  /** Creating a swing and removing it again leaves every registered set as
      it was: only the allocation counter has moved on. */
  lemma CreateThenRemove(config: SwingConfigType, s: Space, startPos: Vec2, group: int, phys: Physics)
    requires Valid(s)
    ensures var r := Create(config, s, startPos, group, phys);
      Remove(r.0, r.1) == s.(next := r.1.next)
  {
    var r := Create(config, s, startPos, group, phys);
    RemoveFreshChain(r.0.links, s, r.1);
  }

  /** num_links is max(1, num_links of the config); top_link is the static
      link 0 and seat the last link; they are the same link exactly when the
      swing has one link. */
  lemma TopLinkAndSeat(config: SwingConfigType, s: Space, startPos: Vec2, group: int, phys: Physics)
    ensures var sw := Create(config, s, startPos, group, phys).0;
      && NumLinks(sw) == (if config.numLinks < 1 then 1 else config.numLinks)
      && TopLink(sw) == Some(sw.links[0])
      && TopLink(sw).value.part.body.kind == Static
      && Seat(sw) == Some(sw.links[|sw.links| - 1])
      && (TopLink(sw) == Seat(sw) <==> config.numLinks <= 1)
  {
    var sw := Create(config, s, startPos, group, phys).0;
    if config.numLinks > 1 {
      assert sw.links[|sw.links| - 1].part.body.id != sw.links[0].part.body.id;
    }
  }

  /** Right after creation every link is at rest, so Swing.update applies
      one zero force per link, at that link's position. */
  lemma UpdateAfterCreateIsDragFree(config: SwingConfigType, s: Space, startPos: Vec2, group: int, phys: Physics)
    requires phys.length(Zero) == 0.0
    ensures var (sw, s1) := Create(config, s, startPos, group, phys);
      var s2 := Update(sw, s1, phys);
      && |s2.forces| == |s.forces| + |sw.links|
      && forall i :: 0 <= i < |sw.links| ==>
           s2.forces[|s.forces| + i] == AppliedForce(sw.links[i].part.body.id, Zero, Position(sw.links[i]))
  {
    var sw := Create(config, s, startPos, group, phys).0;
    var s1 := Create(config, s, startPos, group, phys).1;
    var s2 := Update(sw, s1, phys);
    assert s1.forces == s.forces;
    forall i | 0 <= i < |sw.links|
      ensures s2.forces[|s.forces| + i] == AppliedForce(sw.links[i].part.body.id, Zero, Position(sw.links[i]))
    {
      if i > 0 {
        assert Follows(sw.links[i - 1], sw.links[i], config.linkLength, config.startAngle, phys);
      }
      assert sw.links[i].part.body.velocity == Zero;
      assert s2.forces[|s1.forces| + i] == PartForce(sw.links[i].part, phys);
    }
  }
}

=== FILE: world.dfy ===
/** The physics space as the model sees it: which bodies, shapes and
    constraints are registered, the forces applied since the last step, and
    a counter that hands out fresh identities. pymunk itself (integration,
    collision, joint solving) is not modelled; the few numbers the core
    reads from it and from trigonometry arrive through `Physics`. */
module World {
  import opened Geometry

  /** Identity of a pymunk object (body, shape or constraint). */
  type Handle = nat

  datatype BodyKind = Dynamic | Static

  /** A body's mass: what it was created with, or infinite once pymunk has
      made the body static. */
  datatype Mass = Finite(value: real) | Infinite

  /** A rigid body. Its moment of inertia is not modelled. */
  datatype Body = Body(id: Handle, kind: BodyKind, mass: Mass, position: Vec2, velocity: Vec2)

  /** Collision geometry in body-local coordinates: a pymunk Circle with
      its centre offset, or a pymunk Segment from `a` to `b`. */
  datatype Outline =
    | Circle(radius: real, offset: Vec2)
    | SegmentLine(a: Vec2, b: Vec2, thickness: real)

  /** A collision shape attached to `body`; `group` is its ShapeFilter group,
      so shapes of one group never collide with each other. */
  datatype Shape = Shape(id: Handle, body: Handle, outline: Outline, group: int)

  /** A pin joint between bodies `a` and `b`, anchored at `anchorA` on `a`. */
  datatype Joint = PinJoint(id: Handle, a: Handle, b: Handle, anchorA: Vec2)

  /** One call of apply_force_at_world_point. */
  datatype AppliedForce = AppliedForce(body: Handle, force: Vec2, point: Vec2)

  datatype Space = Space(
    bodies: set<Handle>,
    shapes: set<Handle>,
    constraints: set<Handle>,
    forces: seq<AppliedForce>,
    next: Handle)

  /** The numbers the core takes from outside its own code: the direction of
      an angle (dir_vec: a rotation of NORM_VECTOR), the Euclidean length of
      a vector (a square root) and the area pymunk reports for a shape. */
  datatype Physics = Physics(dirVec: real -> Vec2, length: Vec2 -> real, area: Outline -> real)

  /** One body together with its one shape. */
  datatype RigidPart = RigidPart(body: Body, shape: Shape)

  function Handles(s: Space): set<Handle> {
    s.bodies + s.shapes + s.constraints
  }

  /** Every registered handle was handed out before `next`, so handles at or
      above `next` are fresh. */
  ghost predicate Valid(s: Space) {
    forall h :: h in Handles(s) ==> h < s.next
  }

  /** pymunk.Body + Shape followed by space.add(body, shape): a fresh dynamic
      body at rest at `position` carrying a fresh shape of the given outline. */
  function NewPart(s: Space, position: Vec2, mass: real, outline: Outline, group: int): (r: (RigidPart, Space))
    ensures r.0.body.position == position && r.0.body.velocity == Zero
    ensures r.0.body.kind == Dynamic && r.0.body.mass == Finite(mass)
    ensures r.0.shape == Shape(r.0.shape.id, r.0.body.id, outline, group)
    ensures r.0.body.id == s.next && r.0.shape.id == s.next + 1 && r.1.next == s.next + 2
    ensures r.1.bodies == s.bodies + {r.0.body.id}
    ensures r.1.shapes == s.shapes + {r.0.shape.id}
    ensures r.1.constraints == s.constraints && r.1.forces == s.forces
  {
    var body := Body(s.next, Dynamic, Finite(mass), position, Zero);
    var shape := Shape(s.next + 1, s.next, outline, group);
    (RigidPart(body, shape),
     s.(bodies := s.bodies + {body.id}, shapes := s.shapes + {shape.id}, next := s.next + 2))
  }

  /** A new part takes the two handles at `next`, which a well-formed space
      has not registered, so the space stays well formed. */
  lemma NewPartKeepsValid(s: Space, position: Vec2, mass: real, outline: Outline, group: int)
    requires Valid(s)
    ensures var s1 := NewPart(s, position, mass, outline, group).1;
      && Handles(s1) == Handles(s) + {s.next, s.next + 1}
      && s.next !in Handles(s) && s.next + 1 !in Handles(s)
      && Valid(s1)
  {
  }

  /** k of the drag law: AIR_DENSITY * DRAG_COEFFICIENT * area / 2. */
  function DragConstant(area: real): (k: real)
    ensures area > 0.0 ==> k > 0.0
    ensures area == 0.0 ==> k == 0.0
  {
    AIR_DENSITY * DRAG_COEFFICIENT * area / 2.0
  }

  /** Vec2d.normalized_and_length, given the vector's length: the zero
      vector normalises to itself with length 0. */
  function NormalizedAndLength(v: Vec2, length: real): (r: (Vec2, real))
    ensures r.1 == length
    ensures r.1 == 0.0 ==> r.0 == Zero
    ensures length != 0.0 ==> Scale(r.1, r.0) == v
  {
    if length != 0.0 then (Scale(1.0 / length, v), length) else (Zero, 0.0)
  }

  /** drag_force: -direction * (k * speed^2), with the direction and speed
      of the velocity `v` whose length is `length`. */
  function DragForce(area: real, v: Vec2, length: real): (f: Vec2)
    ensures length == 0.0 ==> f == Zero
    ensures length != 0.0 ==> f == Scale(-(DragConstant(area) * length), v)
  {
    var (direction, speed) := NormalizedAndLength(v, length);
    var magnitude := DragConstant(area) * (speed * speed);
    Scale(magnitude, Neg(direction))
  }

  /** A multiple of a nonzero vector is zero only for the factor zero. */
  lemma ScaleZero(c: real, v: Vec2)
    requires Scale(c, v) == Zero && v != Zero
    ensures c == 0.0
  {
    assert c * v.x == 0.0 && c * v.y == 0.0;
  }

  lemma MulNonneg(a: real, b: real)
    requires a >= 0.0 && b >= 0.0
    ensures a * b >= 0.0
  {
  }

  lemma DotScaleSign(c: real, v: Vec2)
    requires c <= 0.0
    ensures Dot(Scale(c, v), v) <= 0.0
  {
    assert Dot(Scale(c, v), v) == c * (v.x * v.x) + c * (v.y * v.y);
    assert v.x * v.x >= 0.0;
    assert c * (v.x * v.x) <= 0.0;
    assert c * (v.y * v.y) <= 0.0;
  }

  /** For a shape of non-negative area and a non-negative speed, the drag
      force is a non-positive multiple of the velocity: it never pushes a
      body along its motion. */
  lemma DragOpposesMotion(area: real, v: Vec2, speed: real)
    requires area >= 0.0 && speed >= 0.0
    ensures DragConstant(area) * speed >= 0.0
    ensures DragForce(area, v, speed) == Scale(-(DragConstant(area) * speed), v)
    ensures Dot(DragForce(area, v, speed), v) <= 0.0
  {
    var k := DragConstant(area);
    assert k >= 0.0;
    MulNonneg(k, speed);
    DotScaleSign(-(k * speed), v);
  }

  /** When the speed is zero exactly for the zero velocity (as the Euclidean
      length is), the drag force vanishes exactly when the body is at rest
      or its shape has no area. */
  lemma DragZeroExactly(area: real, v: Vec2, speed: real)
    requires area >= 0.0 && speed >= 0.0
    requires speed == 0.0 <==> v == Zero
    ensures DragForce(area, v, speed) == Zero <==> (v == Zero || area == 0.0)
  {
    var k := DragConstant(area);
    if speed != 0.0 {
      var f := DragForce(area, v, speed);
      assert f == Scale(-(k * speed), v);
      if f == Zero {
        ScaleZero(-(k * speed), v);
        assert k == 0.0;
      }
    }
  }

  /** The drag_force property of one part, read from its body's velocity
      and its shape's area: nothing for a part at rest, and never along the
      part's motion. */
  function PartDrag(p: RigidPart, phys: Physics): (f: Vec2)
    ensures p.body.velocity == Zero && phys.length(Zero) == 0.0 ==> f == Zero
    ensures phys.area(p.shape.outline) >= 0.0 && phys.length(p.body.velocity) >= 0.0 ==>
              Dot(f, p.body.velocity) <= 0.0
  {
    var area := phys.area(p.shape.outline);
    var speed := phys.length(p.body.velocity);
    assert area >= 0.0 && speed >= 0.0 ==> Dot(DragForce(area, p.body.velocity, speed), p.body.velocity) <= 0.0 by {
      if area >= 0.0 && speed >= 0.0 {
        DragOpposesMotion(area, p.body.velocity, speed);
      }
    }
    DragForce(area, p.body.velocity, speed)
  }

  /** What update() hands to apply_force_at_world_point for one part. */
  function PartForce(p: RigidPart, phys: Physics): AppliedForce {
    AppliedForce(p.body.id, PartDrag(p, phys), p.body.position)
  }

  /** A part's update(): the force log grows by one force on the part's own
      body at the part's position, which is zero for a part at rest and
      never pushes the part along its motion; nothing else changes. */
  function UpdatePart(p: RigidPart, s: Space, phys: Physics): (r: Space)
    ensures r == s.(forces := s.forces + [PartForce(p, phys)])
    ensures r.bodies == s.bodies && r.shapes == s.shapes && r.constraints == s.constraints && r.next == s.next
    ensures |r.forces| == |s.forces| + 1 && r.forces[..|s.forces|] == s.forces
    ensures r.forces[|s.forces|].body == p.body.id && r.forces[|s.forces|].point == p.body.position
    ensures p.body.velocity == Zero && phys.length(Zero) == 0.0 ==> r.forces[|s.forces|].force == Zero
    ensures phys.area(p.shape.outline) >= 0.0 && phys.length(p.body.velocity) >= 0.0 ==>
              Dot(r.forces[|s.forces|].force, p.body.velocity) <= 0.0
  {
    s.(forces := s.forces + [AppliedForce(p.body.id, PartDrag(p, phys), p.body.position)])
  }

  /** `for part in parts: part.update()`: exactly one force per part, in
      order, each on the part's own body at the part's position; nothing
      else in the space changes. */
  function UpdateAll(parts: seq<RigidPart>, s: Space, phys: Physics): (r: Space)
    ensures r == s.(forces := r.forces)
    ensures |r.forces| == |s.forces| + |parts|
    ensures r.forces[..|s.forces|] == s.forces
    ensures forall i :: 0 <= i < |parts| ==> r.forces[|s.forces| + i] == PartForce(parts[i], phys)
    decreases |parts|
  {
    if parts == [] then s
    else
      var s1 := UpdatePart(parts[0], s, phys);
      var r := UpdateAll(parts[1..], s1, phys);
      assert forall i :: 1 <= i < |parts| ==> parts[i] == parts[1..][i - 1];
      r
  }

  /** The set of the handles in a sequence. */
  function Elems(hs: seq<Handle>): set<Handle> {
    set h | h in hs
  }

  lemma ElemsAppend(a: seq<Handle>, b: seq<Handle>)
    ensures Elems(a + b) == Elems(a) + Elems(b)
  {
  }

  ghost predicate StrictlyIncreasing(hs: seq<Handle>) {
    forall i, j :: 0 <= i < j < |hs| ==> hs[i] < hs[j]
  }

  /** Handles handed out in increasing order are pairwise distinct, so the
      set of them is as large as the sequence. */
  lemma {:induction false} ElemsOfIncreasing(hs: seq<Handle>)
    requires StrictlyIncreasing(hs)
    ensures |Elems(hs)| == |hs|
  {
    if hs != [] {
      var init := hs[..|hs| - 1];
      assert hs == init + [hs[|hs| - 1]];
      assert Elems(hs) == Elems(init) + {hs[|hs| - 1]};
      assert hs[|hs| - 1] !in Elems(init);
      ElemsOfIncreasing(init);
    }
  }

  lemma DisjointUnionSize(a: set<Handle>, b: set<Handle>)
    requires a !! b
    ensures |a + b| == |a| + |b|
  {
  }

  /** Registering strictly increasing handles, all at or above every handle
      already in `a`, grows `a` by their number. */
  lemma FreshAdds(a: set<Handle>, hs: seq<Handle>, next: Handle)
    requires forall h :: h in a ==> h < next
    requires forall h :: h in hs ==> next <= h
    requires StrictlyIncreasing(hs)
    ensures |a + Elems(hs)| == |a| + |hs|
  {
    ElemsOfIncreasing(hs);
    assert a !! Elems(hs);
    DisjointUnionSize(a, Elems(hs));
  }

  /** In a well-formed space each kind of handle lies below `next`. */
  lemma BelowNext(s: Space)
    requires Valid(s)
    ensures forall h :: h in s.bodies ==> h < s.next
    ensures forall h :: h in s.shapes ==> h < s.next
    ensures forall h :: h in s.constraints ==> h < s.next
  {
    forall h | h in s.bodies ensures h < s.next {
      assert h in Handles(s);
    }
    forall h | h in s.shapes ensures h < s.next {
      assert h in Handles(s);
    }
    forall h | h in s.constraints ensures h < s.next {
      assert h in Handles(s);
    }
  }
}
